=== FILE: README.md ===
# Finance tracker core, modelled in Dafny

This project models the core of a Django personal-finance tracker. Its users record income and expense transactions in rupees. Transactions come in four ways besides the ordinary REST create:

- a GPay-style SMS alert is parsed into an expense;
- a UPI payment link is generated and the payment is recorded as pending;
- a voice transcript is logged;
- a bill text is scanned.

The ordinary REST create then runs a detector (core/views.py:31-33), which turns three similar transactions into a RecurringExpense record. The four other entry points create their transactions directly and never run it. A budget suggester totals the current month's expenses per category and adds ten per cent. A private-mode flag is toggled in the session.

Modules, in dependency order:

| module | file | what it holds |
|---|---|---|
| `Wrappers` | wrappers.dfy | `Option` |
| `Text` | text.dfy | Python string operations: `\d`, `str.isspace`, `lower`, `in`, `strip`, `split`/`join` |
| `Models` | models.dfy | the choices, defaults and records of core/models.py, and the store of the two tables |
| `Decimal` | decimal.dfy | what `DecimalField(max_digits=10, decimal_places=2)` stores for a text amount |
| `Calendar` | calendar.dfy | Gregorian months of Unix instants, on the UTC and on the Asia/Kolkata clock |
| `Utils` | utils.dfy | `generate_upi_link` and `parse_sms_data`: both regular expressions, as scanners |
| `Recurring` | recurring.dfy | `detect_recurring` |
| `Budgets` | budgets.dfy | `suggest_budget` |
| `Views` | views.dfy | `perform_create`, `sms_parser`, `generate_upi_page`, `voice_transaction`, `scan_bill`, `private_mode_toggle` |

Conventions:

- **Amounts** are whole paise (`int`).
- **Instants** are whole seconds of Unix time.
- **Database state** is a `Store`: the Transaction table as a sequence in insertion order, plus the RecurringExpense table as a map keyed by `Models.RowKey`: the user and the lowered merchant. `update_or_create` looks the row up with `merchant = %s`, and the project's MySQL database compares that ignoring case under its default collation. A row found that way keeps the merchant spelling it was created with.
- **Endpoints** are pure functions from the store and the request fields to the new store and a `Reply`. A request field is `Option<string>`: `None` means the key is absent.
- **Clock and calendar**: the current instant and the current date are parameters.
- **Text amounts**: an amount written as text, as the SMS and UPI endpoints hand it to `Transaction.objects.create`, goes through `Decimal.ToPaise`. That function models the conversion the field performs when saving, as Django 4.2 and earlier do it (`format_number` quantizes with a ten-digit context). The repository pins no Django version.
  - Text that is not a decimal literal is a server error.
  - The value is rounded half-even to two places.
  - A value that needs more than ten digits, that is 10^8 rupees or more in magnitude, is a server error. 99999999.99 is still stored.

Three details of the code that shape the model:

- **Detector match.** The detector filters with `description__icontains` (core/views.py:287), which ignores case, and so does `Recurring.Similar`.
- **Amount pattern.** The SMS pattern `₹(\d+\.?\d*)` (core/utils.py:8) also captures a trailing point with no digits after it, as in `₹250.`. `Utils.AmountText` captures that token, and `Decimal.ToPaise` stores it as 250.00.
- **No last-detected time.** `detect_recurring` writes only the average amount, the frequency and the next due date (core/views.py:292-298). The model's record has no other field.

## Model

| member | source | states |
|---|---|---|
| Text.LowerMatchesIgnoringCase | core/utils.py:14 | a lower-case ASCII word occurs at a position of the lowered text exactly when it occurs there in the original text with each letter in either case, the Kelvin sign standing for `k` |
| Text.LowerContainsIff | core/utils.py:29 | `word in text.lower()` holds exactly when the word occurs somewhere in the text, ignoring case |
| Text.ContainsIff | core/utils.py:29 | `key in text` holds exactly when the key occurs at some position of the text |
| Text.Strip | core/utils.py:13 | the stripped text is a slice with only whitespace cut off both ends, and it neither starts nor ends with whitespace |
| Text.StripUnchanged | core/utils.py:13 | text that neither starts nor ends with whitespace comes back from `strip` unchanged, so a merchant written without surrounding spaces is captured verbatim |
| Decimal.ParseLiteral | core/models.py:27 | a text accepted as an amount is a sign, digits, an optional point and fraction digits, with at least one digit |
| Decimal.RenderThenParse | core/models.py:27 | a well-formed literal written out parses back to itself |
| Decimal.ParseThenRender | core/models.py:27 | an accepted text is exactly the literal it parses to, written out |
| Decimal.RoundHalfEven | core/models.py:27 | the quotient is the nearest integer, and ties go to the even one |
| Decimal.NearestEvenUnique | core/models.py:27 | half-even rounding has exactly one answer |
| Decimal.LiteralPaise | core/models.py:27 | the paise of a literal are its value times 100, rounded half-even, with the literal's sign |
| Decimal.ToPaise | core/models.py:27 | not a literal gives an error; a stored value lies strictly between -10^10 and 10^10 paise; anything out of that range is refused as too many digits |
| Decimal.PaiseText | core/models.py:27 | the two-place text of an amount parses to the literal with that amount's digits |
| Decimal.PaiseTextRoundTrip | core/models.py:27 | any amount in range, written with two places and then stored, is stored unchanged |
| Utils.LinkIsJoin | core/utils.py:4-5 | the link is the `upi://pay?` prefix followed by the five `key=value` parameters joined with `&` |
| Utils.UpiLinkRoundTrip | core/utils.py:4-5 | with no `&` in any argument, the link's query string reads back as pa, pn, am and tn holding the arguments, then cu=INR |
| Utils.UnescapedAmpersand | core/utils.py:4-5 | a payee name with an `&` in it is not escaped: the link reads back with six parameters and a truncated pn |
| Utils.AmountText | core/utils.py:8 | the `(\d+\.?\d*)` capture after a ₹ is a digits-point-digits token taken from the text and cannot be extended by the next character |
| Utils.AmountTextIsLongest | core/utils.py:8 | no longer slice from the same start is a token, so the greedy match takes the longest |
| Utils.AmountTextUnique | core/utils.py:8 | any token at that position that cannot be extended is the capture |
| Utils.FindAmount | core/utils.py:8 | `re.search` for the amount finds the leftmost ₹ followed by a digit, or reports that there is none |
| Utils.MerchantAtIff | core/utils.py:9 | the lazy `to (.*?) via` pattern matches at a position exactly when `to ` is there and ` via` follows on the same line |
| Utils.FindMerchant | core/utils.py:9 | the search finds the leftmost match, and the capture ends at the first ` via` after `to ` |
| Utils.Categorize | core/utils.py:14-31 | the category is one of the table's categories or Other; Other exactly when no keyword occurs in the lowered merchant; otherwise the category of the first keyword in table order that occurs |
| Utils.OtherIffNoKeyword | core/utils.py:14-31 | a merchant is Other exactly when no keyword occurs anywhere in it, whatever the case of its letters |
| Utils.CategorizeOffersChoice | core/utils.py:16-27 | every category the parser assigns is one of the model's declared choices, and never Rent |
| Utils.TableOrderWins | core/utils.py:16-31 | for "Amazon Uber" the earlier keyword `uber` wins over `amazon`: Transport |
| Utils.KeywordInsideWord | core/utils.py:20-31 | a keyword matches inside a word: "Motorola" contains `ola` and is classed as Transport |
| Utils.ClassificationIgnoresCase | core/utils.py:14-31 | "SWIGGY" is lowered before matching and is classed as Food |
| Utils.ParseSmsData | core/utils.py:7-39 | a parsed SMS is always Paid, with one of the table's categories |
| Utils.ParseSmsDataNone | core/utils.py:11-39 | the parse fails exactly when one of the two patterns matches nowhere |
| Utils.ParseSmsDataAmount | core/utils.py:8-12 | the parsed amount is the capture at the leftmost amount match |
| Utils.ParseSmsDataMerchant | core/utils.py:9-36 | the description is `GPay: ` plus the stripped capture of the leftmost merchant match, and the category is that of the stripped capture |
| Utils.ParseAlert | core/utils.py:7-39 | an alert that opens with "…₹<amount> to <merchant> via" parses to that amount, with the merchant stripped and categorised |
| Recurring.Insert | core/views.py:287 | inserting into a newest-first list keeps it newest first and adds exactly one index |
| Recurring.Ranked | core/views.py:287 | the ordered query lists exactly the user's transactions whose description contains the merchant, ignoring case, newest first |
| Recurring.FrequencyOf | core/views.py:291 | Monthly exactly for gaps of 25–35 days, Weekly exactly for 6–8, Irregular otherwise |
| Recurring.DaysBetween | core/views.py:290 | the whole days of a time difference are its floor in days, never negative for a later minus an earlier instant |
| Recurring.DetectRecurring | core/views.py:286-299 | fewer than three similar transactions change nothing; otherwise only the row under the (user, lowered merchant) key is written, for that user and keeping the spelling of an existing row (the hint's for a new one), and the rest of the table is kept |
| Recurring.DetectRecurringNewest | core/views.py:287-298 | the record is made from the three newest similar transactions: 3 × the average is their sum, the frequency is that of the whole-day gap between the newest two, and the due date is that many days after today |
| Recurring.RankedUpToCase | core/views.py:287 | two hints that differ only in letter case select and order the same transactions |
| Recurring.CaseVariantSharesRecord | core/views.py:292-298 | after detection for one hint, detection for a case variant of it ("NETFLIX" after "Netflix") finds the same row and leaves the table as it was: one record per merchant, under its first spelling |
| Recurring.AmountIgnored | core/views.py:286-299 | the `amount` argument of `detect_recurring` is never read: any two amounts give the same table |
| Recurring.DetectRecurringIdempotent | core/views.py:292-298 | a second detection over the same transactions leaves the table as the first one left it |
| Budgets.Add | core/views.py:276 | adding to the totals keeps every category's position and adds the amount to exactly one category, appending it when it is new |
| Budgets.AddCategories | core/views.py:276 | the totals stay a dictionary, and they hold a category exactly when it was there already or is the one added |
| Budgets.Totals | core/views.py:274-276 | one entry per category that has a counted expense, each holding that category's reference total |
| Budgets.Suggest | core/views.py:274-281 | a suggestion exactly for each category with a counted expense, no category twice, and each budget is 1.1 × the category's total |
| Budgets.SuggestBudgetAsWritten | core/views.py:263-283 | the code as written: the month is the one the UTC clock names, while expenses are dated on the Kolkata clock; every expense of the user dated in that month gets a suggestion for its category, only such categories are suggested, each once, each at 1.1 × its total |
| Budgets.SuggestBudget | core/views.py:263-283 | the corrected variant from "## Findings", with the month named on the same Kolkata clock the filter uses: every expense of the user in the current local month gets a suggestion for its category; only such categories are suggested, each once, each at 1.1 × its month total |
| Budgets.UncountedIgnored | core/views.py:268-272 | a transaction the filter leaves out changes no suggestion |
| Budgets.MonthStartSeesLastMonth | core/views.py:267-271 | at 00:30 on 2024-02-01 in Kolkata, an expense made that instant is missed by the code as written and suggested by the corrected version |
| Budgets.MidnightPeriods | finance_tracker/settings.py:73-75 | instant 1706727600 is in January 2024 on the UTC clock and in February 2024 on the Kolkata clock |
| Budgets.SingleExpense | core/views.py:274-281 | one counted expense gives one suggestion, 1.1 × its amount |
| Views.PerformCreate | core/views.py:31-33 | the saved transaction is appended, stamped with the requesting user, and detection then runs with its description as the merchant |
| Views.PerformCreateDetects | core/views.py:31-33 | the new transaction is one more similar one; with two before it, a row exists afterwards under the key of (user, description), case ignored, whether it was found or made; with fewer, the table is untouched |
| Views.SmsParser | core/views.py:240-260 | the RecurringExpense table is never touched; a request without an `sms` field gives a server error; an unparsable SMS gives 400 "Could not parse SMS"; a parsed SMS whose amount fits the field creates exactly one auto-logged UPI expense with the parsed amount, category, description and status, and one whose amount needs more than ten digits gives a server error; only a created reply changes the store |
| Views.SmsParserOutcomes | core/views.py:240-260 | for every SMS text: 400 exactly when one of the two patterns matches nowhere, and a server error exactly when it parses but its amount is too large for the field |
| Views.SmsExpenseAmount | core/views.py:245-254 | a created expense's amount is never negative and is the stored value of the capture after the leftmost ₹ that starts an amount |
| Views.SmsAlertCreatesExpense | core/views.py:240-258 | an alert "…₹<amount> to <merchant> via" with a storable amount creates exactly that expense |
| Views.GenerateUpiPage | core/views.py:209-237 | the RecurringExpense table is never touched; GET shows the bare page; a POST lacking upi_id, name or amount shows "Missing required fields"; a complete POST whose amount fits the field shows the link built from the fields and records exactly one Pending, auto-logged "Pending GPay to <name>" expense of that amount; one whose amount is not a number or too large gives a server error; a link is shown only when that expense was recorded |
| Views.UpiPageChargesLinkAmount | core/views.py:213-235 | the store changes exactly when a POST carries all three fields and a storable amount; then, with no `&` in any field, the link's `am` parameter reads back as the amount text whose value was recorded |
| Views.UpiPageRecordsAmount | core/views.py:218-235 | an amount written with two places is recorded unchanged in the pending expense |
| Views.VoiceTransaction | core/views.py:305-323 | the RecurringExpense table is never touched; an empty or missing transcript gives 400 "Transcript missing"; otherwise a ₹100 Cash "Voice Entry" expense is appended and the transcript echoed |
| Views.ScanBill | core/views.py:326-344 | the RecurringExpense table is never touched; an empty or missing bill text gives 400 "Bill text missing"; otherwise a ₹250 Card "Bills" expense is appended and the text echoed |
| Views.PrivateModeToggle | core/views.py:354-361 | the new flag is the negation of the session's flag, which is off when unset, and the reply reports it |
| Views.ToggleTwice | core/views.py:356-361 | toggling twice restores the flag |

## Left out

- Authentication, permissions, tokens, sessions other than the private-mode flag, templates and URL routing. Rendering a page is modelled as the `Page` reply with its link or error.
- financial_health_score returns a random number, so it is not modelled. The HTML views and the other viewsets are plain framework CRUD.
- Serializer validation for the ordinary create. `Views.PerformCreate` starts from an already validated `Draft`.
- Request values that are not strings: JSON numbers, lists and so on. A field is absent or a string.
- Views.SmsParser: a request without `sms` reaches `re.search(None)` and fails. This is modelled as a server error, since that is what an uncaught exception becomes.
- Decimal.ToPaise: Python's `Decimal` also accepts non-ASCII decimal digits (such as `١٠٠` or `１００`), exponents, underscores and surrounding whitespace. The model treats these as not a number, so a UPI amount written that way is a server error in the model, though the source stores it. Infinities and NaN are server errors in the source and in the model alike. An infinity fails the two-place quantize, and MySQL's strict mode refuses a NaN. Literals written with ASCII digits, an optional sign and an optional point are handled exactly.
- Decimal.ToPaise: rounding to two places and the 10-digit limit follow the save path of Django 4.2 and earlier. In later releases the value may reach MySQL unquantized, and the database then decides the rounding and the overflow; that behaviour is not modelled. Every error is a server error.
- Utils.AmountText: Python's `\d` also matches non-ASCII decimal digits. Only 0–9 are modelled.
- Text.Lower: Python lowers every cased character. The model lowers A–Z and the Kelvin sign only, which covers everything that can complete one of the lower-case ASCII keywords.
- Recurring.Ranked: `icontains` depends on the database collation. It is modelled as containment after the same lowering.
- Recurring.DetectRecurring: the upsert key compares merchants after `Text.Lower`, which folds ASCII case and the Kelvin sign only. MySQL's default collation also equates accented and unaccented letters and folds other scripts' case; those further equalities are not modelled. The same holds for the key in Views.PerformCreateDetects.
- Recurring.Ranked: rows with the same `date_time` come in an unspecified order; the model takes the later-stored row first. Instants are whole seconds.
- Recurring.DetectRecurringNewest: the average is an exact real number. Decimal division to 28 significant digits and the RecurringExpense field's own precision are not modelled; the model states `3 × average = sum`.
- Recurring.DetectRecurring: `timezone.now().date()` is the `today` parameter, a day number.
- Budgets.Suggest: totals are exact. The float conversion and `round(…, 2)` are not modelled, and each budget is stated as exactly 1.1 × the total.
- Budgets.SuggestBudget: the response's JSON shape is not modelled. It returns the list of (category, budget) suggestions in the order categories first appear.
- Calendar.CivilFromDays: only the month range 1–12 is proved in general. The two dates the counterexample needs are checked one by one.
- Category choices are not enforced by `objects.create`, so "Voice Entry" and "Bills" are stored as given, although they are not among the declared categories.

## Findings

| source | as written | input that shows it | evidently intended | confidence | as-written member | corrected member |
|---|---|---|---|---|---|---|
| core/views.py:267-271 | `now.year`/`now.month` come from `timezone.now()`, which is UTC, while the `__year`/`__month` lookups read `date_time` on the Asia/Kolkata clock | instant 1706727600 (2024-02-01 00:30 in Kolkata, still 2024-01-31 UTC) with one expense made at that instant: as written the filter asks for January on the local clock and suggests nothing | total the current month as the local clock names it | medium, not executed | Budgets.SuggestBudgetAsWritten (exhibited by Budgets.MonthStartSeesLastMonth) | Budgets.SuggestBudget |

=== FILE: budgets.dfy ===
/**
  `suggest_budget` (core/views.py:263-283): the requesting user's
  expenses of the current month, totalled per category in the order the
  categories first turn up, each total scaled by 1.1.
*/
module Budgets {
  import opened Models
  import opened Calendar

  /**
    The filter of core/views.py:267-271: the expenses of `user` whose
    month, as `monthOf` reads their timestamp, is `period`.
  */
  datatype Filter = Filter(user: User, period: Period, monthOf: int -> Period)

  predicate Counted(tx: Transaction, f: Filter) {
    tx.user == f.user && tx.txType == Expense && f.monthOf(tx.dateTime) == f.period
  }

  /** Reference total: the amounts of the counted transactions of category `c`, in paise. */
  function CategoryTotal(txs: seq<Transaction>, f: Filter, c: string): int {
    if |txs| == 0 then 0
    else
      var tx := txs[|txs| - 1];
      CategoryTotal(txs[..|txs| - 1], f, c) + (if Counted(tx, f) && tx.category == c then tx.amount else 0)
  }

  /** One entry of the `category_totals` dictionary. */
  datatype Entry = Entry(category: string, total: int)

  predicate HasCategory(es: seq<Entry>, c: string) {
    exists i :: 0 <= i < |es| && es[i].category == c
  }

  /** No category has two entries (the entries are a dictionary). */
  predicate DistinctCategories(es: seq<Entry>) {
    forall i, j :: 0 <= i < j < |es| ==> es[i].category != es[j].category
  }

  /** The total of category `c`, or 0 when it has no entry (`category_totals.get(c, 0)`). */
  function Lookup(es: seq<Entry>, c: string): int {
    if |es| == 0 then 0 else if es[0].category == c then es[0].total else Lookup(es[1..], c)
  }

  /**
    `category_totals[c] = category_totals.get(c, 0) + amount`: adds to
    the entry of `c` in place, or appends a new entry for it.
  */
  function Add(es: seq<Entry>, c: string, amount: int): (r: seq<Entry>)
    requires DistinctCategories(es)
    ensures |r| == if HasCategory(es, c) then |es| else |es| + 1
    ensures forall i :: 0 <= i < |es| ==> r[i].category == es[i].category
    ensures |r| > |es| ==> r[|es|].category == c
    ensures forall d :: Lookup(r, d) == Lookup(es, d) + (if d == c then amount else 0)
  {
    if |es| == 0 then
      [Entry(c, amount)]
    else if es[0].category == c then
      HasCategoryTail(es);
      LookupMissing(es[1..], c);
      var r := [Entry(c, es[0].total + amount)] + es[1..];
      assert r[1..] == es[1..];
      r
    else
      HasCategoryTail(es);
      var rest := Add(es[1..], c, amount);
      var r := [es[0]] + rest;
      assert r[1..] == rest;
      r
  }

  /** After `Add`, the categories are those before plus `c`, still without repeats. */
  lemma AddCategories(es: seq<Entry>, c: string, amount: int)
    requires DistinctCategories(es)
    ensures DistinctCategories(Add(es, c, amount))
    ensures forall d :: HasCategory(Add(es, c, amount), d) <==> HasCategory(es, d) || d == c
  {
    var r := Add(es, c, amount);
    forall d | HasCategory(r, d)
      ensures HasCategory(es, d) || d == c
    {
      var i :| 0 <= i < |r| && r[i].category == d;
      if i < |es| {
        assert es[i].category == d;
      }
    }
    forall d | HasCategory(es, d)
      ensures HasCategory(r, d)
    {
      var i :| 0 <= i < |es| && es[i].category == d;
      assert r[i].category == d;
    }
    if |r| > |es| {
      assert r[|es|].category == c;
      assert !HasCategory(es, c);
    } else {
      var i :| 0 <= i < |es| && es[i].category == c;
      assert r[i].category == c;
    }
  }

  lemma {:induction false} LookupMissing(es: seq<Entry>, c: string)
    requires !HasCategory(es, c)
    ensures Lookup(es, c) == 0
  {
    if |es| > 0 {
      TailCategories(es);
      LookupMissing(es[1..], c);
    }
  }

  /** Every category of the tail is a category of the whole. */
  lemma TailCategories(es: seq<Entry>)
    requires |es| > 0
    ensures forall d :: HasCategory(es[1..], d) ==> HasCategory(es, d)
  {
    forall d | HasCategory(es[1..], d)
      ensures HasCategory(es, d)
    {
      var i :| 0 <= i < |es[1..]| && es[1..][i].category == d;
      assert es[i + 1].category == d;
    }
  }

  lemma HasCategoryTail(es: seq<Entry>)
    requires |es| > 0 && DistinctCategories(es)
    ensures DistinctCategories(es[1..])
    ensures forall d :: HasCategory(es, d) <==> es[0].category == d || HasCategory(es[1..], d)
    ensures !HasCategory(es[1..], es[0].category)
  {
    forall d | HasCategory(es, d) && es[0].category != d
      ensures HasCategory(es[1..], d)
    {
      var i :| 0 <= i < |es| && es[i].category == d;
      assert es[1..][i - 1].category == d;
    }
    TailCategories(es);
  }

  /** Some transaction the filter keeps has category `c`. */
  predicate Spent(txs: seq<Transaction>, f: Filter, c: string) {
    exists i :: 0 <= i < |txs| && Counted(txs[i], f) && txs[i].category == c
  }

  /** A category is spent in `txs` when it is spent before the last transaction or by the last one. */
  lemma SpentLast(txs: seq<Transaction>, f: Filter)
    requires |txs| > 0
    ensures var init, tx := txs[..|txs| - 1], txs[|txs| - 1];
            forall c :: Spent(txs, f, c) <==> Spent(init, f, c) || (Counted(tx, f) && tx.category == c)
  {
    var init, tx := txs[..|txs| - 1], txs[|txs| - 1];
    forall c | Spent(init, f, c)
      ensures Spent(txs, f, c)
    {
      var i :| 0 <= i < |init| && Counted(init[i], f) && init[i].category == c;
      assert txs[i] == init[i];
    }
    forall c | Spent(txs, f, c) && !(Counted(tx, f) && tx.category == c)
      ensures Spent(init, f, c)
    {
      var i :| 0 <= i < |txs| && Counted(txs[i], f) && txs[i].category == c;
      assert init[i] == txs[i];
    }
  }

  /** The loop of core/views.py:274-276 over the transactions in order. */
  function Totals(txs: seq<Transaction>, f: Filter): (r: seq<Entry>)
    ensures DistinctCategories(r)
    ensures forall c :: HasCategory(r, c) <==> Spent(txs, f, c)
    ensures forall c :: Lookup(r, c) == CategoryTotal(txs, f, c)
  {
    if |txs| == 0 then []
    else
      var init, tx := txs[..|txs| - 1], txs[|txs| - 1];
      var before := Totals(init, f);
      SpentLast(txs, f);
      if Counted(tx, f) then
        AddCategories(before, tx.category, tx.amount);
        Add(before, tx.category, tx.amount)
      else
        before
  }

  /** One item of the `suggestions` list; the budget is in paise. */
  datatype Suggestion = Suggestion(category: string, budget: real)

  predicate Suggested(r: seq<Suggestion>, c: string) {
    exists k :: 0 <= k < |r| && r[k].category == c
  }

  /** Each total scaled by 1.1 (`round(total * 1.1, 2)`, without the rounding). */
  function ScaleAll(es: seq<Entry>): (r: seq<Suggestion>)
    ensures |r| == |es|
    ensures forall k :: 0 <= k < |es| ==> r[k] == Suggestion(es[k].category, (es[k].total as real) * 11.0 / 10.0)
  {
    if |es| == 0 then [] else [Suggestion(es[0].category, (es[0].total as real) * 11.0 / 10.0)] + ScaleAll(es[1..])
  }

  /** The suggestions for the transactions `f` keeps: each category total scaled by 1.1. */
  function Suggest(txs: seq<Transaction>, f: Filter): (r: seq<Suggestion>)
    ensures forall c :: Suggested(r, c) <==> Spent(txs, f, c)
    ensures forall k, l :: 0 <= k < l < |r| ==> r[k].category != r[l].category
    ensures forall k :: 0 <= k < |r| ==> r[k].budget == (CategoryTotal(txs, f, r[k].category) as real) * 11.0 / 10.0
  {
    var totals := Totals(txs, f);
    var r := ScaleAll(totals);
    forall k | 0 <= k < |totals|
      ensures r[k].budget == (CategoryTotal(txs, f, r[k].category) as real) * 11.0 / 10.0
    {
      LookupDistinct(totals, k);
    }
    forall c
      ensures Suggested(r, c) <==> HasCategory(totals, c)
    {
      if Suggested(r, c) {
        var k :| 0 <= k < |r| && r[k].category == c;
        assert totals[k].category == c;
      }
      if HasCategory(totals, c) {
        var k :| 0 <= k < |totals| && totals[k].category == c;
        assert r[k].category == c;
      }
    }
    r
  }

  /** In a dictionary, looking up an entry's key gives that entry's value. */
  lemma {:induction false} LookupDistinct(es: seq<Entry>, k: nat)
    requires DistinctCategories(es) && k < |es|
    ensures Lookup(es, es[k].category) == es[k].total
  {
    if k > 0 {
      assert es[0].category != es[k].category;
      assert es[1..][k - 1] == es[k];
      LookupDistinct(es[1..], k - 1);
    }
  }

  /** `suggest_budget` as written: the month is the one `timezone.now()` reports, read on the UTC clock. */
  function SuggestBudgetAsWritten(txs: seq<Transaction>, user: User, now: int): (r: seq<Suggestion>)
    ensures forall i :: 0 <= i < |txs| && txs[i].user == user && txs[i].txType == Expense
                        && LocalPeriod(txs[i].dateTime) == UtcPeriod(now)
                        ==> Suggested(r, txs[i].category)
    ensures forall c :: Suggested(r, c) ==> Spent(txs, Filter(user, UtcPeriod(now), LocalPeriod), c)
    ensures forall k, l :: 0 <= k < l < |r| ==> r[k].category != r[l].category
    ensures forall k :: 0 <= k < |r| ==>
              r[k].budget == (CategoryTotal(txs, Filter(user, UtcPeriod(now), LocalPeriod), r[k].category) as real) * 11.0 / 10.0
  {
    Suggest(txs, Filter(user, UtcPeriod(now), LocalPeriod))
  }

  /** `suggest_budget` with the month read on the same local clock the filter uses. */
  function SuggestBudget(txs: seq<Transaction>, user: User, now: int): (r: seq<Suggestion>)
    ensures forall i :: 0 <= i < |txs| && txs[i].user == user && txs[i].txType == Expense
                        && LocalPeriod(txs[i].dateTime) == LocalPeriod(now)
                        ==> Suggested(r, txs[i].category)
    ensures forall c :: Suggested(r, c) ==> Spent(txs, Filter(user, LocalPeriod(now), LocalPeriod), c)
    ensures forall k, l :: 0 <= k < l < |r| ==> r[k].category != r[l].category
    ensures forall k :: 0 <= k < |r| ==>
              r[k].budget == (CategoryTotal(txs, Filter(user, LocalPeriod(now), LocalPeriod), r[k].category) as real) * 11.0 / 10.0
  {
    Suggest(txs, Filter(user, LocalPeriod(now), LocalPeriod))
  }

  /** A transaction the filter leaves out (an income, another user's, another month's) changes no suggestion. */
  lemma UncountedIgnored(txs: seq<Transaction>, tx: Transaction, f: Filter)
    requires !Counted(tx, f)
    ensures Suggest(txs + [tx], f) == Suggest(txs, f)
  {
    assert (txs + [tx])[..|txs|] == txs;
  }

  /**
    At 00:30 on 1 February 2024 in Kolkata it is still 31 January in
    UTC: the code as written totals January, so an expense made that
    minute is missing from its own month's suggestions.
  */
  lemma MonthStartSeesLastMonth()
    ensures var now := 1706727600;
            var tx := Transaction(7, Expense, 10000, Food, "", DefaultPaymentMethod, now, DefaultAutoLogged, DefaultStatus);
            && SuggestBudgetAsWritten([tx], 7, now) == []
            && SuggestBudget([tx], 7, now) == [Suggestion(Food, 11000.0)]
  {
    var now := 1706727600;
    var tx := Transaction(7, Expense, 10000, Food, "", DefaultPaymentMethod, now, DefaultAutoLogged, DefaultStatus);
    MidnightPeriods();
    UncountedIgnored([], tx, Filter(7, UtcPeriod(now), LocalPeriod));
    assert [] + [tx] == [tx];
    SingleExpense(tx, Filter(7, LocalPeriod(now), LocalPeriod));
  }

  /** The instant 1706727600 is 31 January 2024 on the UTC clock and 1 February on the local one. */
  lemma MidnightPeriods()
    ensures UtcPeriod(1706727600) == Period(2024, 1)
    ensures LocalPeriod(1706727600) == Period(2024, 2)
  {
    assert 1706727600 / SecondsPerDay == 19753 && (1706727600 + LocalOffset) / SecondsPerDay == 19754;
    LastOfJanuary2024();
    FirstOfFebruary2024();
  }

  /** A single counted expense gives a single suggestion, its amount scaled by 1.1. */
  lemma SingleExpense(tx: Transaction, f: Filter)
    requires Counted(tx, f)
    ensures Suggest([tx], f) == [Suggestion(tx.category, (tx.amount as real) * 11.0 / 10.0)]
  {
    assert [tx][..0] == [];
    assert Totals([tx], f) == [Entry(tx.category, tx.amount)];
  }
}

=== FILE: calendar.dfy ===
/**
  The proleptic Gregorian calendar on Unix time, for the `__year` and
  `__month` lookups. The project runs with time-zone support on and the
  zone Asia/Kolkata (finance_tracker/settings.py:73-75): stored instants
  are UTC, lookups read them in local time, and `timezone.now()` is UTC.
*/
module Calendar {

  const SecondsPerDay := 86400

  /** Asia/Kolkata is UTC+05:30 all year round. */
  const LocalOffset := 19800

  /** A calendar month: year and month number (1 to 12). */
  datatype Period = Period(year: int, month: int)

  /**
    Year, month and day of the day numbered `z` (day 0 is 1970-01-01),
    by counting 400-year eras that start on a 1st of March.
  */
  function CivilFromDays(z: int): (r: (int, int, int))
    ensures 1 <= r.1 <= 12
  {
    var shifted := z + 719468;
    var era := shifted / 146097;
    var doe := shifted % 146097;
    var yoe := (doe - doe / 1460 + doe / 36524 - doe / 146096) / 365;
    var doy := doe - (365 * yoe + yoe / 4 - yoe / 100);
    var mp := (5 * doy + 2) / 153;
    var d := doy - (153 * mp + 2) / 5 + 1;
    var m := if mp < 10 then mp + 3 else mp - 9;
    (yoe + era * 400 + (if m <= 2 then 1 else 0), m, d)
  }

  /** The calendar month of the instant `t` (seconds) on a clock `offset` seconds ahead of UTC. */
  function MonthAt(t: int, offset: int): (p: Period)
    ensures 1 <= p.month <= 12
  {
    var (y, m, _) := CivilFromDays((t + offset) / SecondsPerDay);
    Period(y, m)
  }

  /** The month `now.year`/`now.month` name: that of the UTC clock. */
  function UtcPeriod(t: int): (p: Period)
    ensures 1 <= p.month <= 12
  {
    MonthAt(t, 0)
  }

  /** The month a `__year`/`__month` lookup sees: that of the local clock. */
  function LocalPeriod(t: int): (p: Period)
    ensures 1 <= p.month <= 12
  {
    MonthAt(t, LocalOffset)
  }

  /** Day 19753 is 2024-01-31. */
  lemma LastOfJanuary2024()
    ensures CivilFromDays(19753) == (2024, 1, 31)
  {
    assert 739221 / 146097 == 5 && 739221 % 146097 == 8736;
    assert (8736 - 8736 / 1460 + 8736 / 36524 - 8736 / 146096) / 365 == 23;
    assert 8736 - (365 * 23 + 23 / 4 - 23 / 100) == 336;
    assert (5 * 336 + 2) / 153 == 10 && (153 * 10 + 2) / 5 == 306;
  }

  /** Day 19754 is 2024-02-01. */
  lemma FirstOfFebruary2024()
    ensures CivilFromDays(19754) == (2024, 2, 1)
  {
    assert 739222 / 146097 == 5 && 739222 % 146097 == 8737;
    assert (8737 - 8737 / 1460 + 8737 / 36524 - 8737 / 146096) / 365 == 23;
    assert 8737 - (365 * 23 + 23 / 4 - 23 / 100) == 337;
    assert (5 * 337 + 2) / 153 == 11 && (153 * 11 + 2) / 5 == 337;
  }
}

=== FILE: decimal.dfy ===
/**
  Decimal amounts. Transaction.amount is a DecimalField with ten digits,
  two of them after the point (core/models.py:27). The SMS and UPI entry
  points hand the field a string; the field reads it as a decimal
  literal, rounds it half-even to two places and refuses a value that
  then needs more than ten digits. The model keeps amounts as integer
  paise (hundredths of a rupee).
*/
module Decimal {
  import opened Wrappers
  import opened Text

  // ---------------------------------------------------------------------
  // Digit strings
  // ---------------------------------------------------------------------

  predicate AllDigits(d: string) {
    forall k :: 0 <= k < |d| ==> IsDigit(d[k])
  }

  function Pow10(n: nat): (p: nat)
    ensures p >= 1
  {
    if n == 0 then 1 else 10 * Pow10(n - 1)
  }

  function DigitValue(c: char): (v: nat)
    requires IsDigit(c)
    ensures v < 10
  {
    c as int - '0' as int
  }

  /** The number a string of decimal digits denotes (0 for the empty string). */
  function DigitsValue(d: string): (v: nat)
    requires AllDigits(d)
    ensures v < Pow10(|d|)
  {
    if |d| == 0 then 0 else DigitsValue(d[..|d| - 1]) * 10 + DigitValue(d[|d| - 1])
  }

  function DigitChar(v: nat): (c: char)
    requires v < 10
    ensures IsDigit(c) && DigitValue(c) == v
  {
    ('0' as int + v) as char
  }

  /** The shortest decimal numeral of `n`: "0" for zero, no leading zeros otherwise. */
  function Numeral(n: nat): (d: string)
    ensures |d| > 0 && AllDigits(d)
    ensures |d| > 1 ==> d[0] != '0'
  {
    if n < 10 then [DigitChar(n)] else Numeral(n / 10) + [DigitChar(n % 10)]
  }

  lemma {:induction false} NumeralValue(n: nat)
    ensures DigitsValue(Numeral(n)) == n
  {
    if n >= 10 {
      NumeralValue(n / 10);
      var d := Numeral(n);
      assert d[..|d| - 1] == Numeral(n / 10);
    }
  }

  // ---------------------------------------------------------------------
  // Literals
  // ---------------------------------------------------------------------

  /**
    A decimal literal: an optional sign ("", "+" or "-"), the digits
    before the point, whether there is a point, and the digits after it.
  */
  datatype Literal = Literal(sign: string, whole: string, point: bool, fraction: string)

  /** `[+-]? digits [. digits?]` or `[+-]? . digits`: at least one digit, a fraction only after a point. */
  predicate ValidLiteral(l: Literal) {
    && l.sign in {"", "+", "-"}
    && AllDigits(l.whole) && AllDigits(l.fraction)
    && |l.whole| + |l.fraction| > 0
    && (!l.point ==> l.fraction == "")
  }

  /** The text of a literal. */
  function Render(l: Literal): (s: string)
    ensures |s| == |l.sign| + |l.whole| + (if l.point then 1 else 0) + |l.fraction|
  {
    l.sign + l.whole + (if l.point then "." else "") + l.fraction
  }

  /** Length of the run of digits at the start of `s`. */
  function LeadingDigits(s: string): (n: nat)
    ensures n <= |s| && AllDigits(s[..n])
    ensures n < |s| ==> !IsDigit(s[n])
  {
    if |s| > 0 && IsDigit(s[0]) then
      var n := 1 + LeadingDigits(s[1..]);
      assert forall k :: 1 <= k < n ==> s[..n][k] == s[1..][..n - 1][k - 1];
      n
    else 0
  }

  /** The sign a literal starts with, if any. */
  function SignPart(s: string): (sign: string)
    ensures sign in {"", "+", "-"} && |sign| <= |s| && s[..|sign|] == sign
  {
    if |s| > 0 && s[0] == '+' then "+" else if |s| > 0 && s[0] == '-' then "-" else ""
  }

  /** Reads the unsigned part of a literal: its whole digits, whether there is a point, its fraction digits. */
  function ParseUnsigned(body: string): (r: Option<(string, bool, string)>)
  {
    var n := LeadingDigits(body);
    var whole, rest := body[..n], body[n..];
    if rest == "" then
      (if n > 0 then Some((whole, false, "")) else None)
    else if rest[0] == '.' && AllDigits(rest[1..]) && n + |rest| > 1 then
      Some((whole, true, rest[1..]))
    else None
  }

  /** Reads a decimal literal, or nothing when `s` is not one. */
  function ParseLiteral(s: string): (r: Option<Literal>)
    ensures r.Some? ==> ValidLiteral(r.value)
  {
    var sign := SignPart(s);
    match ParseUnsigned(s[|sign|..])
    case None => None
    case Some((whole, point, fraction)) => Some(Literal(sign, whole, point, fraction))
  }

  /** The unsigned text of a literal. */
  function UnsignedText(whole: string, point: bool, fraction: string): string {
    whole + ((if point then "." else "") + fraction)
  }

  lemma UnsignedRoundTrip(whole: string, point: bool, fraction: string)
    requires AllDigits(whole) && AllDigits(fraction) && |whole| + |fraction| > 0
    requires !point ==> fraction == ""
    ensures ParseUnsigned(UnsignedText(whole, point, fraction)) == Some((whole, point, fraction))
  {
    var rest := (if point then "." else "") + fraction;
    var body := whole + rest;
    WholeThenRest(whole, rest);
    assert body[..|whole|] == whole && body[|whole|..] == rest;
    if point {
      assert rest[1..] == fraction;
    }
  }

  lemma SignRoundTrip(sign: string, body: string)
    requires sign in {"", "+", "-"}
    requires |body| > 0 ==> body[0] != '+' && body[0] != '-'
    ensures SignPart(sign + body) == sign && (sign + body)[|sign|..] == body
  {
  }

  /** Rendering then reading gives the literal back. */
  lemma RenderThenParse(l: Literal)
    requires ValidLiteral(l)
    ensures ParseLiteral(Render(l)) == Some(l)
  {
    var body := UnsignedText(l.whole, l.point, l.fraction);
    Assoc3(l.sign, l.whole, if l.point then "." else "", l.fraction);
    assert Render(l) == l.sign + body;
    SignRoundTrip(l.sign, body);
    UnsignedRoundTrip(l.whole, l.point, l.fraction);
  }

  /** The leading digit run of `w + rest` is `w` when `rest` does not start with a digit. */
  lemma {:induction false} WholeThenRest(w: string, rest: string)
    requires AllDigits(w) && (|rest| > 0 ==> !IsDigit(rest[0]))
    ensures LeadingDigits(w + rest) == |w|
  {
    if |w| > 0 {
      assert (w + rest)[1..] == w[1..] + rest;
      WholeThenRest(w[1..], rest);
    }
  }

  /** Reading then rendering gives the text back: a literal is read exactly as written. */
  lemma ParseThenRender(s: string)
    requires ParseLiteral(s).Some?
    ensures Render(ParseLiteral(s).value) == s
  {
    var l := ParseLiteral(s).value;
    var k := |l.sign|;
    SplitAt(s, k);
    UnsignedThenText(s[k..]);
    Assoc3(l.sign, l.whole, if l.point then "." else "", l.fraction);
  }

  lemma UnsignedThenText(body: string)
    requires ParseUnsigned(body).Some?
    ensures var (whole, point, fraction) := ParseUnsigned(body).value;
            UnsignedText(whole, point, fraction) == body
  {
    var n := LeadingDigits(body);
    SplitAt(body, n);
    if body[n..] != "" {
      assert body[n..] == "." + body[n..][1..];
    }
  }

  lemma SplitAt(s: string, n: nat)
    requires n <= |s|
    ensures s == s[..n] + s[n..]
  {
  }

  lemma Assoc3(a: string, b: string, c: string, d: string)
    ensures a + b + c + d == a + (b + (c + d))
  {
  }

  // ---------------------------------------------------------------------
  // Rounding to paise
  // ---------------------------------------------------------------------

  /**
    `q` is the integer nearest to `n / d`, and an even one when `n / d`
    lies halfway between two integers (ROUND_HALF_EVEN).
  */
  predicate NearestEven(n: int, d: nat, q: int)
    requires d > 0
  {
    && -(d as int) <= 2 * (n - q * d) <= d
    && (2 * (n - q * d) == d || 2 * (n - q * d) == -(d as int) ==> q % 2 == 0)
  }

  /** Multiplication by `d` moves one step of the quotient by exactly `d`. */
  lemma MulStep(q: int, d: int)
    ensures (q + 1) * d == q * d + d
  {
  }

  /** Quotients that differ by at least one give products that differ by at least `d`. */
  lemma MulApart(a: int, b: int, d: nat)
    requires a < b
    ensures a * d + d <= b * d
  {
    var k := b - a - 1;
    assert b == (a + 1) + k;
    assert b * d == (a + 1) * d + k * d;
    MulStep(a, d);
  }

  /** Euclidean division: the remainder is what the quotient's multiple leaves. */
  lemma DivRem(n: nat, d: nat)
    requires d > 0
    ensures 0 <= n - (n / d) * d < d
    ensures 2 * (n % d) == 2 * (n - (n / d) * d)
  {
  }

  /** Rounding the quotient `q` up is nearest-even when the remainder is past half, or half with `q` odd. */
  lemma RoundUp(n: int, d: nat, q: int)
    requires d > 0 && 0 <= n - q * d < d
    requires 2 * (n - q * d) > d || (2 * (n - q * d) == d && q % 2 == 1)
    ensures NearestEven(n, d, q + 1)
  {
    MulStep(q, d);
  }

  /** Keeping the quotient `q` is nearest-even when the remainder is below half, or half with `q` even. */
  lemma RoundDown(n: int, d: nat, q: int)
    requires d > 0 && 0 <= n - q * d < d
    requires !(2 * (n - q * d) > d || (2 * (n - q * d) == d && q % 2 == 1))
    ensures NearestEven(n, d, q)
  {
  }

  /** Euclidean division with the remainder rounded half-even. */
  function RoundHalfEven(n: nat, d: nat): (q: nat)
    requires d > 0
    ensures NearestEven(n, d, q)
  {
    var q, r := n / d, n % d;
    DivRem(n, d);
    if 2 * r > d || (2 * r == d && q % 2 == 1) then
      RoundUp(n, d, q);
      q + 1
    else
      RoundDown(n, d, q);
      q
  }

  /** The quotient `NearestEven` allows is unique. */
  lemma NearestEvenUnique(n: int, d: nat, q1: int, q2: int)
    requires d > 0 && NearestEven(n, d, q1) && NearestEven(n, d, q2)
    ensures q1 == q2
  {
    if q1 != q2 {
      var lo, hi := if q1 < q2 then q1 else q2, if q1 < q2 then q2 else q1;
      NearestEvenApart(n, d, lo, hi);
    }
  }

  lemma NearestEvenApart(n: int, d: nat, lo: int, hi: int)
    requires d > 0 && lo < hi
    ensures !(NearestEven(n, d, lo) && NearestEven(n, d, hi))
  {
    var el, eh := n - lo * d, n - hi * d;
    MulStep(lo, d);
    if hi == lo + 1 {
      assert eh == el - d;
    } else {
      MulApart(lo + 1, hi, d);
      assert eh <= el - 2 * d;
    }
  }

  /** Half-even rounding is symmetric about zero. */
  lemma NearestEvenNegate(n: int, d: nat, q: int)
    requires d > 0 && NearestEven(n, d, q)
    ensures NearestEven(-n, d, -q)
  {
    assert -n - (-q) * d == -(n - q * d);
  }

  /** The literal's digits as one whole number: its value times 10 to the number of fraction digits. */
  function Coefficient(l: Literal): nat
    requires ValidLiteral(l)
  {
    DigitsValue(l.whole + l.fraction)
  }

  /** `n * k - q * (d * k)` is the error `n - q * d` scaled by `k`. */
  lemma Distribute(n: int, d: int, q: int, k: int)
    ensures n * k - q * (d * k) == (n - q * d) * k
  {
  }

  lemma MulLess(a: int, b: int, k: nat)
    requires a < b && k > 0
    ensures a * k < b * k
  {
    MulApart(a, b, k);
  }

  /** `n / d` and `(n * k) / (d * k)` round to the same quotient. */
  lemma NearestEvenScale(n: int, d: nat, q: int, k: nat)
    requires d > 0 && k > 0 && NearestEven(n, d, q)
    ensures NearestEven(n * k, d * k, q)
  {
    var e := n - q * d;
    Distribute(n, d, q, k);
    assert 2 * (e * k) == (2 * e) * k;
    assert -(d as int) * k == -(d * k);
    if 2 * e < d {
      MulLess(2 * e, d, k);
    }
    if -(d as int) < 2 * e {
      MulLess(-(d as int), 2 * e, k);
    }
  }

  lemma Pow10Split(k: nat)
    requires k >= 2
    ensures Pow10(k) == Pow10(k - 2) * 100
  {
  }

  /** The literal's value in paise, rounded half-even to two decimal places. */
  function LiteralPaise(l: Literal): (p: int)
    requires ValidLiteral(l)
    ensures if l.sign == "-" then p <= 0 else p >= 0
    ensures NearestEven((if l.sign == "-" then -(Coefficient(l) as int) else Coefficient(l)) * 100, Pow10(|l.fraction|), p)
  {
    var c, k := Coefficient(l), |l.fraction|;
    var m := ScaledPaise(c, k);
    if l.sign == "-" then
      NearestEvenNegate(c * 100, Pow10(k), m);
      -(m as int)
    else m
  }

  /** The paise of the unsigned value `c / 10^k`, rounded half-even. */
  function ScaledPaise(c: nat, k: nat): (m: nat)
    ensures NearestEven(c * 100, Pow10(k), m)
  {
    if k == 0 then c * 100
    else if k == 1 then
      assert Pow10(1) == 10 && (c * 10) * 10 == c * 100;
      c * 10
    else if k == 2 then
      assert Pow10(2) == 100;
      c
    else
      var m := RoundHalfEven(c, Pow10(k - 2));
      Pow10Split(k);
      NearestEvenScale(c, Pow10(k - 2), m, 100);
      m
  }

  /** Exclusive bound on the magnitude ten digits can hold, in paise; 99999999.99 is the largest stored. */
  const Limit: nat := 10_000_000_000

  /** What the amount field makes of a string. */
  datatype StoredAmount = Stored(paise: int) | NotANumber | TooManyDigits

  /**
    Reads `s` as the amount field does: a string that is not a decimal
    literal is refused, the value is rounded half-even to paise, and a
    result of more than ten digits is refused.
  */
  function ToPaise(s: string): (r: StoredAmount)
    ensures r.NotANumber? <==> ParseLiteral(s).None?
    ensures r.Stored? ==> -(Limit as int) < r.paise < Limit && r.paise == LiteralPaise(ParseLiteral(s).value)
    ensures r.TooManyDigits? ==> var p := LiteralPaise(ParseLiteral(s).value); p <= -(Limit as int) || Limit <= p
  {
    match ParseLiteral(s)
    case None => NotANumber
    case Some(l) =>
      var p := LiteralPaise(l);
      if -(Limit as int) < p < Limit then Stored(p) else TooManyDigits
  }

  // ---------------------------------------------------------------------
  // The two-place text of an amount
  // ---------------------------------------------------------------------

  /** The literal of `p` paise with exactly two decimals. */
  function TwoPlaces(p: int): (l: Literal)
    ensures ValidLiteral(l)
  {
    var m: nat := if p < 0 then -p else p;
    Literal(if p < 0 then "-" else "", Numeral(m / 100), true, [DigitChar(m % 100 / 10), DigitChar(m % 10)])
  }

  /** `p` paise written with exactly two decimals, as the API renders a stored amount: "-12.05". */
  function PaiseText(p: int): (s: string)
    ensures ParseLiteral(s) == Some(TwoPlaces(p))
  {
    RenderThenParse(TwoPlaces(p));
    Render(TwoPlaces(p))
  }

  /** The digits of the two-place literal spell the magnitude of `p`. */
  lemma {:induction false} TwoPlacesCoefficient(p: int)
    ensures Coefficient(TwoPlaces(p)) == if p < 0 then -p else p
  {
    var l := TwoPlaces(p);
    var m: nat := if p < 0 then -p else p;
    var w, f0, f1 := l.whole, l.fraction[0], l.fraction[1];
    NumeralValue(m / 100);
    assert l.whole + l.fraction == (w + [f0]) + [f1];
    AppendDigit(w, f0);
    AppendDigit(w + [f0], f1);
    HundredsTensUnits(m);
  }

  /** Appending a digit multiplies the value by ten and adds the digit. */
  lemma AppendDigit(d: string, c: char)
    requires AllDigits(d) && IsDigit(c)
    ensures DigitsValue(d + [c]) == DigitsValue(d) * 10 + DigitValue(c)
  {
    assert (d + [c])[..|d|] == d;
  }

  /** A number is its hundreds, tens and units put back together. */
  lemma HundredsTensUnits(m: nat)
    ensures ((m / 100) * 10 + m % 100 / 10) * 10 + m % 10 == m
  {
  }

  /** Every amount the field can hold survives being written with two decimals and read back. */
  lemma {:induction false} PaiseTextRoundTrip(p: int)
    requires -(Limit as int) < p < Limit
    ensures ToPaise(PaiseText(p)) == Stored(p)
  {
    var l := TwoPlaces(p);
    TwoPlacesCoefficient(p);
    assert (if l.sign == "-" then -(Coefficient(l) as int) else Coefficient(l)) == p;
    assert NearestEven(p * 100, Pow10(2), p);
    NearestEvenUnique(p * 100, Pow10(2), p, LiteralPaise(l));
  }
}

=== FILE: models.dfy ===
/**
  The records of core/models.py, plus RecurringExpense, whose fields are
  taken from how core/views.py writes it. Amounts are integer paise (the
  fields are decimals with two places); timestamps are integer seconds
  since the Unix epoch, in UTC; dates are day numbers.
*/
module Models {
  import Text

  /** A user account, identified by its primary key. */
  type User = nat

  /** TRANSACTION_TYPES. */
  datatype TxType = Income | Expense

  /** STATUS_CHOICES. */
  datatype Status = Pending | Paid

  /**
    Category is a plain string: CATEGORIES lists the choices the form
    offers, but the voice and bill-scan entry points store 'Voice Entry'
    and 'Bills', which are not among them.
  */
  const Food := "Food"
  const Transport := "Transport"
  const Rent := "Rent"
  const Shopping := "Shopping"
  const Health := "Health"
  const Other := "Other"

  const Categories: seq<string> := [Food, Transport, Rent, Shopping, Health, Other]

  /** Default of Transaction.payment_method. */
  const DefaultPaymentMethod := "UPI"

  /** Default of Transaction.is_auto_logged. */
  const DefaultAutoLogged := false

  /** Default of Transaction.status. */
  const DefaultStatus := Paid

  datatype Transaction = Transaction(
    user: User,
    txType: TxType,
    amount: int,           // paise
    category: string,
    description: string,
    paymentMethod: string,
    dateTime: int,         // seconds, stamped on creation
    isAutoLogged: bool,
    status: Status)

  datatype Frequency = Weekly | Monthly | Irregular

  datatype RecurringExpense = RecurringExpense(
    user: User,
    merchant: string,
    averageAmount: real,   // paise; the mean of three decimals need not be whole
    frequency: Frequency,
    nextDueDate: int)      // day number

  /**
    The row `update_or_create(user=…, merchant=…)` finds for a merchant:
    the project's database is MySQL, whose default collation compares
    `merchant = %s` ignoring case, so the key holds the lowered merchant.
  */
  function RowKey(user: User, merchant: string): (User, string) {
    (user, Text.Lower(merchant))
  }

  /** The RecurringExpense table, keyed the way `update_or_create` looks records up. */
  type RecurringTable = map<(User, string), RecurringExpense>

  /** Every record sits under the key made of its own user and merchant. */
  ghost predicate WellKeyed(table: RecurringTable) {
    forall k :: k in table ==> RowKey(table[k].user, table[k].merchant) == k
  }

  /** Everything the core reads or writes: the Transaction table in insertion order, and the RecurringExpense table. */
  datatype Store = Store(txs: seq<Transaction>, recurring: RecurringTable)
}

=== FILE: recurring.dfy ===
/**
  `detect_recurring` (core/views.py:286-299): the three newest
  transactions of a user whose description contains a hint, ignoring
  case, become a RecurringExpense record for that hint.
*/
module Recurring {
  import opened Text
  import opened Models
  import Calendar

  /** `filter(user=user, description__icontains=merchant)`. */
  predicate Similar(tx: Transaction, user: User, merchant: string) {
    tx.user == user && IContains(tx.description, merchant)
  }

  /** How many of the first `n` transactions are similar. */
  function SimilarCount(txs: seq<Transaction>, user: User, merchant: string, n: nat): nat
    requires n <= |txs|
  {
    if n == 0 then 0
    else SimilarCount(txs, user, merchant, n - 1) + (if Similar(txs[n - 1], user, merchant) then 1 else 0)
  }

  /**
    Transaction `a` comes before transaction `b` in `order_by('-date_time')`:
    it is newer, or, at the same instant, it was stored later.
  */
  predicate Newer(txs: seq<Transaction>, a: nat, b: nat)
    requires a < |txs| && b < |txs|
  {
    txs[a].dateTime > txs[b].dateTime || (txs[a].dateTime == txs[b].dateTime && a > b)
  }

  /** `r` lists transaction indices, newest first. */
  predicate NewestFirst(txs: seq<Transaction>, r: seq<nat>) {
    && (forall k :: 0 <= k < |r| ==> r[k] < |txs|)
    && (forall k, l :: 0 <= k < l < |r| ==> Newer(txs, r[k], r[l]))
  }

  /** Puts index `i` into its place in the newest-first list `r`. */
  function Insert(txs: seq<Transaction>, r: seq<nat>, i: nat): (s: seq<nat>)
    requires NewestFirst(txs, r) && i < |txs| && i !in r
    ensures NewestFirst(txs, s)
    ensures |s| == |r| + 1
    ensures forall j :: j in s <==> j in r || j == i
  {
    if |r| == 0 then [i]
    else if Newer(txs, i, r[0]) then
      var s := [i] + r;
      assert forall k :: 0 < k < |s| ==> s[k] == r[k - 1];
      s
    else
      TailNewestFirst(txs, r);
      var rest := Insert(txs, r[1..], i);
      var s := [r[0]] + rest;
      forall k | 0 < k < |s|
        ensures Newer(txs, s[0], s[k])
      {
        assert s[k] == rest[k - 1] && s[k] in rest;
        if s[k] != i {
          var m :| 0 <= m < |r[1..]| && r[1..][m] == s[k];
          assert r[m + 1] == s[k];
        }
      }
      s
  }

  /** The tail of a newest-first list is newest first, and older than its head. */
  lemma TailNewestFirst(txs: seq<Transaction>, r: seq<nat>)
    requires NewestFirst(txs, r) && |r| > 0
    ensures NewestFirst(txs, r[1..])
    ensures forall j :: j in r[1..] ==> j in r && j != r[0]
  {
    forall j | j in r[1..]
      ensures j in r && j != r[0]
    {
      var m :| 0 <= m < |r[1..]| && r[1..][m] == j;
      assert r[m + 1] == j;
    }
  }

  /** The similar transactions among the first `n`, newest first: the ordered query. */
  function Ranked(txs: seq<Transaction>, user: User, merchant: string, n: nat): (r: seq<nat>)
    requires n <= |txs|
    ensures NewestFirst(txs, r)
    ensures forall j :: j in r <==> 0 <= j < n && Similar(txs[j], user, merchant)
    ensures |r| == SimilarCount(txs, user, merchant, n)
  {
    if n == 0 then []
    else
      var before := Ranked(txs, user, merchant, n - 1);
      var similar := Similar(txs[n - 1], user, merchant);
      var r := if similar then Insert(txs, before, n - 1) else before;
      RankedMembers(txs, user, merchant, n, before, r);
      r
  }

  /** One more index considered: the list holds it exactly when it is similar. */
  lemma RankedMembers(txs: seq<Transaction>, user: User, merchant: string, n: nat, before: seq<nat>, r: seq<nat>)
    requires 0 < n <= |txs|
    requires forall j :: j in before <==> 0 <= j < n - 1 && Similar(txs[j], user, merchant)
    requires forall j :: j in r <==> j in before || (j == n - 1 && Similar(txs[n - 1], user, merchant))
    ensures forall j :: j in r <==> 0 <= j < n && Similar(txs[j], user, merchant)
  {
  }

  /** Frequency of a gap of whole days (core/views.py:291). */
  function FrequencyOf(gap: int): (f: Frequency)
    ensures f == Monthly <==> 25 <= gap <= 35
    ensures f == Weekly <==> 6 <= gap <= 8
    ensures f == Irregular <==> !(25 <= gap <= 35 || 6 <= gap <= 8)
  {
    if 25 <= gap <= 35 then Monthly else if 6 <= gap <= 8 then Weekly else Irregular
  }

  /** Whole days from instant `t1` to the later instant `t0`, as `timedelta.days` counts them. */
  function DaysBetween(t0: int, t1: int): (days: int)
    ensures t0 >= t1 ==> days >= 0
    ensures days * Calendar.SecondsPerDay <= t0 - t1 < (days + 1) * Calendar.SecondsPerDay
  {
    (t0 - t1) / Calendar.SecondsPerDay
  }

  /**
    The record `update_or_create` writes when the newest three similar
    transactions are `a`, `b`, `c`: only the `defaults` change, so a row
    found under the key keeps the merchant spelling it was created with.
  */
  function Record(txs: seq<Transaction>, table: RecurringTable, user: User, merchant: string,
                  a: nat, b: nat, c: nat, today: int): RecurringExpense
    requires a < |txs| && b < |txs| && c < |txs|
  {
    var sum := txs[a].amount + txs[b].amount + txs[c].amount;
    var gap := DaysBetween(txs[a].dateTime, txs[b].dateTime);
    var key := RowKey(user, merchant);
    var name := if key in table then table[key].merchant else merchant;
    RecurringExpense(user, name, sum as real / 3.0, FrequencyOf(gap), today + gap)
  }

  /** The merchant spelling a written record carries: the found row's, or the hint's for a new row. */
  function StoredName(table: RecurringTable, user: User, merchant: string): string {
    var key := RowKey(user, merchant);
    if key in table then table[key].merchant else merchant
  }

  /**
    `detect_recurring(user, merchant, amount)` against the Transaction
    table `txs` and the RecurringExpense table, on the day `today`.
  */
  function DetectRecurring(txs: seq<Transaction>, table: RecurringTable, user: User, merchant: string,
                           amount: int, today: int): (r: RecurringTable)
    ensures SimilarCount(txs, user, merchant, |txs|) < 3 ==> r == table
    ensures SimilarCount(txs, user, merchant, |txs|) >= 3 ==>
              && r.Keys == table.Keys + {RowKey(user, merchant)}
              && (forall k :: k in table && k != RowKey(user, merchant) ==> r[k] == table[k])
              && r[RowKey(user, merchant)].user == user
              && r[RowKey(user, merchant)].merchant == StoredName(table, user, merchant)
    ensures WellKeyed(table) ==> WellKeyed(r)
  {
    var ranked := Ranked(txs, user, merchant, |txs|);
    if |ranked| < 3 then table
    else table[RowKey(user, merchant) := Record(txs, table, user, merchant, ranked[0], ranked[1], ranked[2], today)]
  }

  /**
    With three or more similar transactions, the record is made from the
    three newest: their mean amount, the whole days between the newest
    two (never negative), the frequency of that gap, and the due date
    that many days after today.
  */
  lemma DetectRecurringNewest(txs: seq<Transaction>, table: RecurringTable, user: User, merchant: string,
                              amount: int, today: int)
    requires SimilarCount(txs, user, merchant, |txs|) >= 3
    ensures var rec := DetectRecurring(txs, table, user, merchant, amount, today)[RowKey(user, merchant)];
            exists a, b, c ::
              && 0 <= a < |txs| && 0 <= b < |txs| && 0 <= c < |txs|
              && Similar(txs[a], user, merchant) && Similar(txs[b], user, merchant) && Similar(txs[c], user, merchant)
              && Newer(txs, a, b) && Newer(txs, b, c)
              && (forall j :: 0 <= j < |txs| && Similar(txs[j], user, merchant) && j != a && j != b && j != c ==> Newer(txs, c, j))
              && 3.0 * rec.averageAmount == (txs[a].amount + txs[b].amount + txs[c].amount) as real
              && var gap := DaysBetween(txs[a].dateTime, txs[b].dateTime);
                 && gap >= 0
                 && rec.frequency == FrequencyOf(gap)
                 && rec.nextDueDate == today + gap
  {
    var ranked := Ranked(txs, user, merchant, |txs|);
    var a, b, c := ranked[0], ranked[1], ranked[2];
    assert a in ranked && b in ranked && c in ranked;
    forall j | 0 <= j < |txs| && Similar(txs[j], user, merchant) && j != a && j != b && j != c
      ensures Newer(txs, c, j)
    {
      assert j in ranked;
      var k :| 0 <= k < |ranked| && ranked[k] == j;
      assert k > 2;
    }
  }

  /** The `amount` argument is never read. */
  lemma AmountIgnored(txs: seq<Transaction>, table: RecurringTable, user: User, merchant: string,
                      amount1: int, amount2: int, today: int)
    ensures DetectRecurring(txs, table, user, merchant, amount1, today)
         == DetectRecurring(txs, table, user, merchant, amount2, today)
  {
  }

  /** Running the detection twice on the same transactions changes nothing the second time. */
  lemma DetectRecurringIdempotent(txs: seq<Transaction>, table: RecurringTable, user: User, merchant: string,
                                  amount: int, today: int)
    ensures var once := DetectRecurring(txs, table, user, merchant, amount, today);
            DetectRecurring(txs, once, user, merchant, amount, today) == once
  {
    var once := DetectRecurring(txs, table, user, merchant, amount, today);
    var twice := DetectRecurring(txs, once, user, merchant, amount, today);
    if SimilarCount(txs, user, merchant, |txs|) >= 3 {
      assert twice.Keys == once.Keys;
    }
  }

  /** Whether a transaction is similar depends on the hint only up to case. */
  lemma SimilarUpToCase(tx: Transaction, user: User, m1: string, m2: string)
    requires Lower(m1) == Lower(m2)
    ensures Similar(tx, user, m1) == Similar(tx, user, m2)
  {
  }

  /** Hints that differ only in case rank the same transactions. */
  lemma {:induction false} RankedUpToCase(txs: seq<Transaction>, user: User, m1: string, m2: string, n: nat)
    requires n <= |txs| && Lower(m1) == Lower(m2)
    ensures Ranked(txs, user, m1, n) == Ranked(txs, user, m2, n)
  {
    if n > 0 {
      RankedUpToCase(txs, user, m1, m2, n - 1);
      SimilarUpToCase(txs[n - 1], user, m1, m2);
    }
  }

  /**
    A hint differing only in case from one already detected finds the
    same row: the table keeps one record for the merchant, under its
    first spelling, and the second detection rewrites it to the same value.
  */
  lemma CaseVariantSharesRecord(txs: seq<Transaction>, table: RecurringTable, user: User, m1: string, m2: string,
                                amount: int, today: int)
    requires Lower(m1) == Lower(m2)
    ensures var once := DetectRecurring(txs, table, user, m1, amount, today);
            DetectRecurring(txs, once, user, m2, amount, today) == once
  {
    RankedUpToCase(txs, user, m1, m2, |txs|);
    var once := DetectRecurring(txs, table, user, m1, amount, today);
    var twice := DetectRecurring(txs, once, user, m2, amount, today);
    if |Ranked(txs, user, m1, |txs|)| >= 3 {
      assert RowKey(user, m1) == RowKey(user, m2);
      assert twice.Keys == once.Keys;
    }
  }
}

=== FILE: text.dfy ===
/**
  Character classes and string helpers shared by the parser and the
  queries: ASCII digits, Python's whitespace, lower-casing, substring
  search, `str.strip` and splitting on a separator.
*/
module Text {
  import opened Wrappers

  /** ASCII decimal digit (what `\d` matches in the model). */
  predicate IsDigit(c: char) {
    '0' <= c <= '9'
  }

  /** The characters for which Python's `str.isspace()` holds; `str.strip()` removes them. */
  predicate IsSpace(c: char) {
    || c == ' '
    || '\t' <= c <= '\r'
    || '\U{1c}' <= c <= '\U{1f}'
    || c == '\U{85}'
    || c == '\U{a0}'
    || c == '\U{1680}'
    || '\U{2000}' <= c <= '\U{200a}'
    || c == '\U{2028}'
    || c == '\U{2029}'
    || c == '\U{202f}'
    || c == '\U{205f}'
    || c == '\U{3000}'
  }

  /**
    Lower-cases one character: A-Z, and the Kelvin sign, which Python's
    `str.lower()` maps to an ASCII `k`. Other characters are kept.
  */
  function LowerChar(c: char): char {
    if 'A' <= c <= 'Z' then (c as int + 32) as char
    else if c == '\U{212a}' then 'k'
    else c
  }

  function Lower(s: string): (r: string)
    ensures |r| == |s|
    ensures forall i :: 0 <= i < |s| ==> r[i] == LowerChar(s[i])
  {
    seq(|s|, i requires 0 <= i < |s| => LowerChar(s[i]))
  }

  /** `c` is the lower-case ASCII letter `d` written in either case, or the Kelvin sign standing for `k`. */
  predicate SameLetter(c: char, d: char) {
    c == d || c as int + 32 == d as int || (d == 'k' && c == '\U{212a}')
  }

  /** `word` occurs in `s` at index `i` when letter case is ignored. */
  predicate OccursIgnoringCase(s: string, word: string, i: int) {
    0 <= i && i + |word| <= |s| && forall k :: 0 <= k < |word| ==> SameLetter(s[i + k], word[k])
  }

  /** A character lowers to the lower-case ASCII letter `d` exactly when it is that letter in some case. */
  lemma LowerCharIff(c: char, d: char)
    requires 'a' <= d <= 'z'
    ensures LowerChar(c) == d <==> SameLetter(c, d)
  {
  }

  /**
    A lower-case ASCII word occurs in the lowered text exactly where it
    occurs in the text itself, ignoring case.
  */
  lemma LowerMatchesIgnoringCase(s: string, word: string, i: int)
    requires forall k :: 0 <= k < |word| ==> 'a' <= word[k] <= 'z'
    ensures OccursAt(Lower(s), word, i) <==> OccursIgnoringCase(s, word, i)
  {
    if 0 <= i && i + |word| <= |s| {
      var window := Lower(s)[i..i + |word|];
      forall k | 0 <= k < |word|
        ensures window[k] == word[k] <==> SameLetter(s[i + k], word[k])
      {
        LowerCharIff(s[i + k], word[k]);
      }
      if OccursIgnoringCase(s, word, i) {
        assert window == word;
      }
    }
  }

  /** The same, for the whole text: Python's `word in s.lower()`. */
  lemma LowerContainsIff(s: string, word: string)
    requires forall k :: 0 <= k < |word| ==> 'a' <= word[k] <= 'z'
    ensures Contains(Lower(s), word) <==> exists i :: OccursIgnoringCase(s, word, i)
  {
    ContainsIff(Lower(s), word);
    forall i
      ensures OccursAt(Lower(s), word, i) <==> OccursIgnoringCase(s, word, i)
    {
      LowerMatchesIgnoringCase(s, word, i);
    }
  }

  /** `sub` occurs in `s` starting at index `i`. */
  predicate OccursAt(s: string, sub: string, i: int) {
    0 <= i && i + |sub| <= |s| && s[i..i + |sub|] == sub
  }

  /** `sub[k..]` occurs in `s` at `i + k`, compared one character at a time. */
  predicate MatchesFrom(s: string, sub: string, i: nat, k: nat)
    requires i + |sub| <= |s| && k <= |sub|
    decreases |sub| - k
  {
    k == |sub| || (s[i + k] == sub[k] && MatchesFrom(s, sub, i, k + 1))
  }

  lemma {:induction false} MatchesFromIff(s: string, sub: string, i: nat, k: nat)
    requires i + |sub| <= |s| && k <= |sub|
    ensures MatchesFrom(s, sub, i, k) <==> s[i + k..i + |sub|] == sub[k..]
    decreases |sub| - k
  {
    if k < |sub| {
      MatchesFromIff(s, sub, i, k + 1);
      assert s[i + k..i + |sub|] == [s[i + k]] + s[i + k + 1..i + |sub|];
      assert sub[k..] == [sub[k]] + sub[k + 1..];
    }
  }

  /** The leftmost index at or after `from` where `sub` occurs (Python's `str.find`). */
  function IndexOf(s: string, sub: string, from: nat): (r: Option<nat>)
    ensures r.Some? ==> from <= r.value && OccursAt(s, sub, r.value)
    ensures r.Some? ==> forall k :: from <= k < r.value ==> !OccursAt(s, sub, k)
    ensures r.None? ==> forall k :: from <= k ==> !OccursAt(s, sub, k)
    decreases |s| - from
  {
    if from + |sub| > |s| then None
    else
      MatchesFromIff(s, sub, from, 0);
      if MatchesFrom(s, sub, from, 0) then Some(from)
      else IndexOf(s, sub, from + 1)
  }

  /** Python's `sub in s`. */
  predicate Contains(s: string, sub: string) {
    IndexOf(s, sub, 0).Some?
  }

  lemma ContainsIff(s: string, sub: string)
    ensures Contains(s, sub) <==> exists i :: OccursAt(s, sub, i)
  {
    if Contains(s, sub) {
      assert OccursAt(s, sub, IndexOf(s, sub, 0).value);
    }
  }

  lemma {:induction false} ContainsItself(s: string)
    ensures Contains(s, s)
  {
    assert s[0..|s|] == s;
    assert OccursAt(s, s, 0);
    ContainsIff(s, s);
  }

  /** One differing character rules out an occurrence. */
  lemma Mismatch(s: string, sub: string, i: nat, j: nat)
    requires j < |sub| && i + j < |s| && s[i + j] != sub[j]
    ensures !OccursAt(s, sub, i)
  {
    if i + |sub| <= |s| {
      assert s[i..i + |sub|][j] == s[i + j];
    }
  }

  /** A slice of a stretch `w` of `s` that starts at `m` is the matching slice of `s`. */
  lemma SliceWithin(s: string, m: nat, w: string, a: nat, b: nat)
    requires m + |w| <= |s| && s[m..m + |w|] == w && a <= b <= |w|
    ensures s[m + a..m + b] == w[a..b]
  {
    var x, y := s[m + a..m + b], w[a..b];
    forall j | 0 <= j < b - a
      ensures x[j] == y[j]
    {
      assert x[j] == s[m + a + j] == s[m..m + |w|][a + j] == w[a + j] == y[j];
    }
  }

  /** Inside a stretch `w` of `s` that starts at `m`, occurrences in `s` are occurrences in `w`. */
  lemma OccursWithin(s: string, m: nat, w: string, sub: string, k: nat)
    requires m + |w| <= |s| && s[m..m + |w|] == w && k + |sub| <= |w|
    ensures OccursAt(s, sub, m + k) <==> OccursAt(w, sub, k)
  {
    SliceWithin(s, m, w, k, k + |sub|);
  }

  /** A character-by-character match at `i` is an occurrence. */
  lemma MatchedHere(s: string, sub: string, i: nat)
    requires i + |sub| <= |s| && MatchesFrom(s, sub, i, 0)
    ensures Contains(s, sub)
  {
    MatchesFromIff(s, sub, i, 0);
    assert OccursAt(s, sub, i);
    ContainsIff(s, sub);
  }

  /** A string with a character that never appears in `s` does not occur in it. */
  lemma AbsentChar(s: string, sub: string, j: nat)
    requires j < |sub| && sub[j] !in s
    ensures !Contains(s, sub)
  {
    ContainsIff(s, sub);
  }

  /** The database's case-insensitive containment (`icontains`). */
  predicate IContains(s: string, sub: string) {
    Contains(Lower(s), Lower(sub))
  }

  /** Number of leading characters of `s` for which Python's `isspace()` holds. */
  function LeadingSpace(s: string): (n: nat)
    ensures n <= |s|
    ensures forall k :: 0 <= k < n ==> IsSpace(s[k])
    ensures n < |s| ==> !IsSpace(s[n])
  {
    if |s| == 0 || !IsSpace(s[0]) then 0 else 1 + LeadingSpace(s[1..])
  }

  /** Number of trailing characters of `s`, none before index `a`, for which Python's `isspace()` holds. */
  function TrailingSpace(s: string, a: nat): (n: nat)
    requires a <= |s|
    ensures n <= |s| - a
    ensures forall k :: |s| - n <= k < |s| ==> IsSpace(s[k])
    ensures n < |s| - a ==> !IsSpace(s[|s| - n - 1])
  {
    if |s| == a || !IsSpace(s[|s| - 1]) then 0 else 1 + TrailingSpace(s[..|s| - 1], a)
  }

  /**
    Python's `s.strip()`: the result is a slice `s[a..b]` that neither
    starts nor ends with whitespace, and everything cut away is whitespace.
  */
  function Strip(s: string): (r: string)
    ensures exists a, b ::
              && 0 <= a <= b <= |s| && r == s[a..b]
              && (forall k :: 0 <= k < a ==> IsSpace(s[k]))
              && (forall k :: b <= k < |s| ==> IsSpace(s[k]))
    ensures |r| > 0 ==> !IsSpace(r[0]) && !IsSpace(r[|r| - 1])
  {
    var a := LeadingSpace(s);
    var b := |s| - TrailingSpace(s, a);
    var r := s[a..b];
    assert |r| > 0 ==> r[0] == s[a] && r[|r| - 1] == s[b - 1];
    r
  }

  /** Text that neither starts nor ends with whitespace is left alone by `strip`. */
  lemma StripUnchanged(s: string)
    requires |s| > 0 && !IsSpace(s[0]) && !IsSpace(s[|s| - 1])
    ensures Strip(s) == s
  {
    var r := Strip(s);
    var a, b :| && 0 <= a <= b <= |s| && r == s[a..b]
                && (forall k :: 0 <= k < a ==> IsSpace(s[k]))
                && (forall k :: b <= k < |s| ==> IsSpace(s[k]));
    assert a == 0 && b == |s|;
  }

  /** Python's `s.split(sep)` for a single-character separator. */
  function Split(s: string, sep: char): (r: seq<string>)
    ensures |r| > 0
    ensures forall k :: 0 <= k < |r| ==> sep !in r[k]
    ensures sep !in s ==> r == [s]
  {
    if sep !in s then [s]
    else
      var i := IndexOfChar(s, sep);
      [s[..i]] + Split(s[i + 1..], sep)
  }

  /** Index of the first `c` in `s`. */
  function IndexOfChar(s: string, c: char): (i: nat)
    requires c in s
    ensures i < |s| && s[i] == c && c !in s[..i]
  {
    if s[0] == c then 0 else 1 + IndexOfChar(s[1..], c)
  }

  /** Splitting `a + [sep] + b` peels off `a` when `a` has no separator. */
  lemma {:induction false} SplitCons(a: string, sep: char, b: string)
    requires sep !in a
    ensures Split(a + [sep] + b, sep) == [a] + Split(b, sep)
  {
    var s := a + [sep] + b;
    assert s[|a|] == sep;
    var i := IndexOfChar(s, sep);
    assert s[..|a|] == a;
    assert i == |a|;
    assert s[..i] == a;
    assert s[i + 1..] == b;
  }

  /** Joins non-empty `parts` with `sep` between them (Python's `sep.join(parts)`). */
  function Join(parts: seq<string>, sep: char): string
    requires |parts| > 0
  {
    if |parts| == 1 then parts[0] else parts[0] + [sep] + Join(parts[1..], sep)
  }

  /** Splitting undoes joining when no part contains the separator. */
  lemma {:induction false} SplitJoin(parts: seq<string>, sep: char)
    requires |parts| > 0
    requires forall k :: 0 <= k < |parts| ==> sep !in parts[k]
    ensures Split(Join(parts, sep), sep) == parts
    decreases |parts|
  {
    if |parts| > 1 {
      SplitCons(parts[0], sep, Join(parts[1..], sep));
      SplitJoin(parts[1..], sep);
      assert parts == [parts[0]] + parts[1..];
    }
  }
}

=== FILE: utils.dfy ===
/**
  core/utils.py: the UPI deep-link formatter and the SMS payment-alert
  parser. The two regular expressions of the parser are written out as
  scanning functions, each with a declarative description of what the
  regular-expression search finds.
*/
module Utils {
  import opened Wrappers
  import opened Text
  import opened Models

  // ---------------------------------------------------------------------
  // generate_upi_link
  // ---------------------------------------------------------------------

  const UpiPrefix := "upi://pay?"

  /** The fixed-shape UPI deep link; nothing is escaped. */
  function GenerateUpiLink(upiId: string, name: string, amount: string, note: string): string {
    UpiPrefix + "pa=" + upiId + "&pn=" + name + "&am=" + amount + "&tn=" + note + "&cu=INR"
  }

  /** Splits one `key=value` parameter at its first `=`. */
  function KeyValue(p: string): (string, string) {
    if '=' in p then
      var i := IndexOfChar(p, '=');
      (p[..i], p[i + 1..])
    else (p, "")
  }

  /** How a consumer reads a UPI link back: drop the prefix, split on `&`, then on the first `=`. */
  function QueryParams(link: string): Option<seq<(string, string)>> {
    if |link| < |UpiPrefix| || link[..|UpiPrefix|] != UpiPrefix then None
    else
      var parts := Split(link[|UpiPrefix|..], '&');
      Some(seq(|parts|, k requires 0 <= k < |parts| => KeyValue(parts[k])))
  }

  lemma {:induction false} KeyValueOf(key: string, value: string)
    requires '=' !in key
    ensures KeyValue(Param(key, value)) == (key, value)
  {
    var p := Param(key, value);
    assert p[|key|] == '=';
    assert p[..|key|] == key;
    assert IndexOfChar(p, '=') == |key|;
    assert p[|key| + 1..] == value;
  }

  /** The five `key=value` parameters of a link, in order. */
  function LinkParams(upiId: string, name: string, amount: string, note: string): seq<string> {
    [Param("pa", upiId), Param("pn", name), Param("am", amount), Param("tn", note), Param("cu", "INR")]
  }

  function Param(key: string, value: string): string {
    key + "=" + value
  }

  lemma {:induction false} LinkIsJoin(upiId: string, name: string, amount: string, note: string)
    ensures GenerateUpiLink(upiId, name, amount, note) == UpiPrefix + Join(LinkParams(upiId, name, amount, note), '&')
  {
    var params := LinkParams(upiId, name, amount, note);
    JoinFive(params);
    var link := GenerateUpiLink(upiId, name, amount, note);
    var tail := "&cu=INR";
    assert link == UpiPrefix + "pa=" + upiId + "&pn=" + name + "&am=" + amount + "&tn=" + note + tail;
    assert params[4] == "cu=INR" && ['&'] + params[4] == tail;
  }

  /** Joining five parts puts a separator between each two. */
  lemma JoinFive(parts: seq<string>)
    requires |parts| == 5
    ensures Join(parts, '&') == parts[0] + ['&'] + (parts[1] + ['&'] + (parts[2] + ['&'] + (parts[3] + ['&'] + parts[4])))
  {
    assert Join(parts[4..], '&') == parts[4];
    assert Join(parts[3..], '&') == parts[3] + ['&'] + parts[4];
    assert Join(parts[2..], '&') == parts[2] + ['&'] + (parts[3] + ['&'] + parts[4]);
    assert Join(parts[1..], '&') == parts[1] + ['&'] + (parts[2] + ['&'] + (parts[3] + ['&'] + parts[4]));
  }

  /** Reading back a prefixed join of `&`-free parameters recovers each parameter. */
  lemma {:induction false} QueryParamsOfJoin(parts: seq<string>)
    requires |parts| > 0
    requires forall k :: 0 <= k < |parts| ==> '&' !in parts[k]
    ensures QueryParams(UpiPrefix + Join(parts, '&')) == Some(seq(|parts|, k requires 0 <= k < |parts| => KeyValue(parts[k])))
  {
    var link := UpiPrefix + Join(parts, '&');
    assert link[..|UpiPrefix|] == UpiPrefix;
    assert link[|UpiPrefix|..] == Join(parts, '&');
    SplitJoin(parts, '&');
  }

  /**
    The link reads back as exactly the five parameters pa, pn, am, tn, cu,
    in that order and with the values given, whenever no field contains `&`.
  */
  lemma {:induction false} UpiLinkRoundTrip(upiId: string, name: string, amount: string, note: string)
    requires '&' !in upiId && '&' !in name && '&' !in amount && '&' !in note
    ensures QueryParams(GenerateUpiLink(upiId, name, amount, note))
         == Some([("pa", upiId), ("pn", name), ("am", amount), ("tn", note), ("cu", "INR")])
  {
    var params := LinkParams(upiId, name, amount, note);
    LinkIsJoin(upiId, name, amount, note);
    ParamsHaveNoAmpersand(upiId, name, amount, note);
    QueryParamsOfJoin(params);
    KeyValuesOfParams(upiId, name, amount, note);
  }

  lemma ParamsHaveNoAmpersand(upiId: string, name: string, amount: string, note: string)
    requires '&' !in upiId && '&' !in name && '&' !in amount && '&' !in note
    ensures forall k :: 0 <= k < 5 ==> '&' !in LinkParams(upiId, name, amount, note)[k]
  {
    var params := LinkParams(upiId, name, amount, note);
    assert params[0] == "pa=" + upiId && params[1] == "pn=" + name && params[2] == "am=" + amount;
    assert params[3] == "tn=" + note;
  }

  lemma KeyValuesOfParams(upiId: string, name: string, amount: string, note: string)
    ensures var params := LinkParams(upiId, name, amount, note);
            seq(|params|, k requires 0 <= k < |params| => KeyValue(params[k]))
            == [("pa", upiId), ("pn", name), ("am", amount), ("tn", note), ("cu", "INR")]
  {
    KeyValueOf("pa", upiId);
    KeyValueOf("pn", name);
    KeyValueOf("am", amount);
    KeyValueOf("tn", note);
    KeyValueOf("cu", "INR");
  }

  /**
    Nothing is escaped: a payee name `n1&n2` cuts the `pn` parameter short
    at the `&` and the link reads back with six parameters.
  */
  lemma {:induction false} UnescapedAmpersand(upiId: string, n1: string, n2: string, amount: string, note: string)
    requires '&' !in upiId && '&' !in n1 && '&' !in n2 && '&' !in amount && '&' !in note
    ensures var r := QueryParams(GenerateUpiLink(upiId, n1 + "&" + n2, amount, note));
            r.Some? && |r.value| == 6 && r.value[1] == ("pn", n1)
  {
    var name := n1 + "&" + n2;
    var params := LinkParams(upiId, name, amount, note);
    var parts := [params[0], Param("pn", n1), n2, params[2], params[3], params[4]];
    LinkIsJoin(upiId, name, amount, note);
    assert Join(parts[1..], '&') == Join(params[1..], '&') by {
      assert parts[3..] == params[2..];
      assert Param("pn", n1) + ['&'] + n2 == params[1];
    }
    assert Join(parts, '&') == Join(params, '&');
    assert forall k :: 0 <= k < |parts| ==> '&' !in parts[k] by {
      assert parts[0] == "pa=" + upiId && parts[1] == "pn=" + n1 && parts[3] == "am=" + amount;
      assert parts[4] == "tn=" + note && parts[5] == "cu=INR";
    }
    QueryParamsOfJoin(parts);
    KeyValueOf("pn", n1);
  }

  // ---------------------------------------------------------------------
  // The amount pattern  ₹(\d+\.?\d*)
  // ---------------------------------------------------------------------

  const Rupee: char := '\U{20b9}'

  /** The amount pattern can start at `i`: a `₹` immediately followed by a digit. */
  predicate AmountAt(s: string, i: int) {
    0 <= i && i + 1 < |s| && s[i] == Rupee && IsDigit(s[i + 1])
  }

  /** Words of `\d+\.?\d*`: a leading digit, then digits and at most one `.`. */
  predicate IsAmountToken(a: string) {
    && |a| > 0
    && IsDigit(a[0])
    && (forall k :: 0 <= k < |a| ==> IsDigit(a[k]) || a[k] == '.')
    && (forall k, l :: 0 <= k < l < |a| ==> a[k] != '.' || a[l] != '.')
  }

  /** Appending `c` to the token `a` would still give a token. */
  predicate CanExtend(a: string, c: char) {
    IsDigit(c) || (c == '.' && '.' !in a)
  }

  /** `a` is a token found in `s` at `start` that the character after it cannot extend. */
  predicate Maximal(s: string, start: nat, a: string) {
    && start + |a| <= |s| && s[start..start + |a|] == a && IsAmountToken(a)
    && (start + |a| < |s| ==> !CanExtend(a, s[start + |a|]))
  }

  /** Length of the run of digits starting at `i`. */
  function DigitRun(s: string, i: nat): (n: nat)
    requires i <= |s|
    ensures i + n <= |s|
    ensures forall k :: i <= k < i + n ==> IsDigit(s[k])
    ensures i + n < |s| ==> !IsDigit(s[i + n])
    decreases |s| - i
  {
    if i < |s| && IsDigit(s[i]) then 1 + DigitRun(s, i + 1) else 0
  }

  /**
    The greedy capture group of the amount pattern at `i`: a token that
    follows the `₹` in `s` and that the next character cannot extend.
  */
  function AmountText(s: string, i: nat): (r: string)
    requires AmountAt(s, i)
    ensures Maximal(s, i + 1, r)
  {
    var n := DigitRun(s, i + 1);
    var j := i + 1 + n;
    if j < |s| && s[j] == '.' then
      var r := s[i + 1..j + 1 + DigitRun(s, j + 1)];
      TokenShape(r, n);
      assert r[n] == '.';
      r
    else
      var r := s[i + 1..j];
      TokenShape(r, n);
      r
  }

  /** Digits with at most one `.`, at index `n` (or none when `n` is the length), make a token. */
  lemma TokenShape(r: string, n: nat)
    requires 0 < n <= |r|
    requires forall k :: 0 <= k < |r| && k != n ==> IsDigit(r[k])
    requires n < |r| ==> r[n] == '.'
    ensures IsAmountToken(r)
  {
  }

  /** Every prefix of a token is a token. */
  lemma TokenPrefix(a: string, n: nat)
    requires 0 < n <= |a|
    ensures IsAmountToken(a) ==> IsAmountToken(a[..n])
  {
  }

  /** A token that the next character cannot extend is the longest token starting there. */
  lemma {:induction false} LongestToken(s: string, start: nat, a: string, e: nat)
    requires Maximal(s, start, a)
    requires start + |a| < e <= |s|
    ensures !IsAmountToken(s[start..e])
  {
    var c := s[start + |a|];
    var t := a + [c];
    if c == '.' {
      var k :| 0 <= k < |a| && a[k] == '.';
      assert t[k] == '.' && t[|a|] == '.';
    } else {
      assert !IsDigit(t[|a|]) && t[|a|] != '.';
    }
    assert !IsAmountToken(t);
    TokenPrefix(s[start..e], |a| + 1);
    assert s[start..e][..|a| + 1] == t;
  }

  /** `LongestToken`, for any end point within the text. */
  lemma NoLongerToken(s: string, start: nat, a: string, e: nat)
    requires Maximal(s, start, a)
    requires e <= |s|
    ensures start + |a| < e ==> !IsAmountToken(s[start..e])
  {
    if start + |a| < e {
      LongestToken(s, start, a, e);
    }
  }

  /** The captured amount is the longest token that follows the `₹`. */
  lemma {:induction false} AmountTextIsLongest(s: string, i: nat, e: nat)
    requires AmountAt(s, i)
    requires i + 1 + |AmountText(s, i)| < e <= |s|
    ensures !IsAmountToken(s[i + 1..e])
  {
    LongestToken(s, i + 1, AmountText(s, i), e);
  }

  /** Any token after the `₹` that the next character cannot extend is the captured amount. */
  lemma {:induction false} AmountTextUnique(s: string, i: nat, a: string)
    requires AmountAt(s, i)
    requires Maximal(s, i + 1, a)
    ensures AmountText(s, i) == a
  {
    var r := AmountText(s, i);
    NoLongerToken(s, i + 1, r, i + 1 + |a|);
    NoLongerToken(s, i + 1, a, i + 1 + |r|);
  }

  /** The leftmost index at or after `from` where the amount pattern can start. */
  function FindAmount(s: string, from: nat): (r: Option<nat>)
    ensures r.Some? ==> from <= r.value && AmountAt(s, r.value)
    ensures r.Some? ==> forall k :: from <= k < r.value ==> !AmountAt(s, k)
    ensures r.None? ==> forall k :: from <= k ==> !AmountAt(s, k)
    decreases |s| - from
  {
    if from + 1 >= |s| then None
    else if AmountAt(s, from) then Some(from)
    else FindAmount(s, from + 1)
  }

  // ---------------------------------------------------------------------
  // The merchant pattern  to (.*?) via
  // ---------------------------------------------------------------------

  predicate ToAt(s: string, i: int) {
    OccursAt(s, "to ", i)
  }

  predicate ViaAt(s: string, j: int) {
    OccursAt(s, " via", j)
  }

  /** No line break in `s[j..e]`: the stretch that `.` can match. */
  predicate NoBreak(s: string, j: int, e: int) {
    forall k :: j <= k < e && 0 <= k < |s| ==> s[k] != '\n'
  }

  /**
    The merchant pattern matches at `i`: `to ` at `i`, and ` via` later on
    the same line (`.` does not match a newline).
  */
  ghost predicate MerchantMatch(s: string, i: int) {
    && ToAt(s, i)
    && exists e :: i + 3 <= e && ViaAt(s, e) && NoBreak(s, i + 3, e)
  }

  /** The lazy `(.*?) via` from `j`: the first ` via` at or after `j`, unless a newline comes first. */
  function ViaFrom(s: string, j: nat): (r: Option<nat>)
    ensures r.Some? ==> j <= r.value && ViaAt(s, r.value) && NoBreak(s, j, r.value)
    ensures r.Some? ==> forall k :: j <= k < r.value ==> !ViaAt(s, k)
    ensures r.None? ==> forall e :: j <= e && ViaAt(s, e) ==> !NoBreak(s, j, e)
    decreases |s| - j
  {
    if j + 4 > |s| then None
    else if s[j..j + 4] == " via" then Some(j)
    else if s[j] == '\n' then None
    else
      ViaFrom(s, j + 1)
  }

  /** The merchant pattern matches at `i` as the matcher decides it: "to " there, then a lazy scan for " via". */
  predicate MerchantAt(s: string, i: nat) {
    ToAt(s, i) && ViaFrom(s, i + 3).Some?
  }

  /** The lazy scan decides the pattern exactly. */
  lemma MerchantAtIff(s: string, i: nat)
    ensures MerchantMatch(s, i) <==> MerchantAt(s, i)
  {
    if ToAt(s, i) && ViaFrom(s, i + 3).Some? {
      var e := ViaFrom(s, i + 3).value;
      assert i + 3 <= e && ViaAt(s, e) && NoBreak(s, i + 3, e);
    }
  }

  /** `MerchantAtIff` at every index. */
  lemma MatchIsMerchantAt(s: string)
    ensures forall i :: MerchantMatch(s, i) <==> 0 <= i && MerchantAt(s, i)
  {
    forall i: nat
      ensures MerchantMatch(s, i) <==> MerchantAt(s, i)
    {
      MerchantAtIff(s, i);
    }
  }

  /** The leftmost index at or after `from` where the merchant pattern matches, with the end of its capture. */
  function FindMerchant(s: string, from: nat): (r: Option<(nat, nat)>)
    ensures r.Some? ==> from <= r.value.0 && MerchantAt(s, r.value.0)
    ensures r.Some? ==> ViaFrom(s, r.value.0 + 3) == Some(r.value.1)
    ensures r.Some? ==> forall k :: from <= k < r.value.0 ==> !MerchantAt(s, k)
    ensures r.None? ==> forall k :: from <= k ==> !MerchantAt(s, k)
    decreases |s| - from
  {
    if from + 3 > |s| then None
    else if MerchantAt(s, from) then Some((from, ViaFrom(s, from + 3).value))
    else FindMerchant(s, from + 1)
  }

  // ---------------------------------------------------------------------
  // Classification
  // ---------------------------------------------------------------------

  /** The keyword table, in the order it is searched. */
  const CategoryKeywords: seq<(string, string)> := [
    ("zomato", Food),
    ("swiggy", Food),
    ("uber", Transport),
    ("ola", Transport),
    ("amazon", Shopping),
    ("flipkart", Shopping),
    ("pharmeasy", Health),
    ("medlife", Health)
  ]

  /** Index of the first keyword of `table`, at or after `from`, that occurs in `text`. */
  function FirstKeyword(table: seq<(string, string)>, text: string, from: nat): (r: Option<nat>)
    ensures r.Some? ==> from <= r.value < |table| && Contains(text, table[r.value].0)
    ensures r.Some? ==> forall l :: from <= l < r.value ==> !Contains(text, table[l].0)
    ensures r.None? ==> forall l :: from <= l < |table| ==> !Contains(text, table[l].0)
    decreases |table| - from
  {
    if from >= |table| then None
    else if Contains(text, table[from].0) then Some(from)
    else FirstKeyword(table, text, from + 1)
  }

  /**
    The category of an already lower-cased merchant: the value of the
    first keyword, in table order, that occurs in it; 'Other' if none does.
  */
  function Classify(lowered: string): (r: string)
    ensures r in {Food, Transport, Shopping, Health, Other}
    ensures r == Other <==> forall l :: 0 <= l < |CategoryKeywords| ==> !Contains(lowered, CategoryKeywords[l].0)
    ensures r != Other ==> exists k ::
              && 0 <= k < |CategoryKeywords|
              && Contains(lowered, CategoryKeywords[k].0)
              && r == CategoryKeywords[k].1
              && forall l :: 0 <= l < k ==> !Contains(lowered, CategoryKeywords[l].0)
  {
    match FirstKeyword(CategoryKeywords, lowered, 0)
    case Some(k) => CategoryKeywords[k].1
    case None => Other
  }

  /** The category `parse_sms_data` assigns to a merchant: case-insensitive keyword search. */
  function Categorize(merchant: string): (r: string)
    ensures r in {Food, Transport, Shopping, Health, Other}
    ensures r == Other <==> forall l :: 0 <= l < |CategoryKeywords| ==> !Contains(Lower(merchant), CategoryKeywords[l].0)
    ensures r != Other ==> exists k ::
              && 0 <= k < |CategoryKeywords|
              && Contains(Lower(merchant), CategoryKeywords[k].0)
              && r == CategoryKeywords[k].1
              && forall l :: 0 <= l < k ==> !Contains(Lower(merchant), CategoryKeywords[l].0)
  {
    Classify(Lower(merchant))
  }

  /** Every category the parser assigns is one of the form's choices, and never Rent. */
  lemma CategorizeOffersChoice(merchant: string)
    ensures Categorize(merchant) in Categories && Categorize(merchant) != Rent
  {
  }

  /** The keywords are lower-case ASCII words. */
  lemma KeywordsAreLowerCase()
    ensures forall l, k :: 0 <= l < |CategoryKeywords| && 0 <= k < |CategoryKeywords[l].0| ==>
              'a' <= CategoryKeywords[l].0[k] <= 'z'
  {
  }

  /**
    A merchant falls under Other exactly when no keyword occurs anywhere
    in it, whatever the case of its letters.
  */
  lemma OtherIffNoKeyword(merchant: string)
    ensures Categorize(merchant) == Other <==>
              forall l, i :: 0 <= l < |CategoryKeywords| ==> !OccursIgnoringCase(merchant, CategoryKeywords[l].0, i)
  {
    KeywordsAreLowerCase();
    forall l | 0 <= l < |CategoryKeywords|
      ensures Contains(Lower(merchant), CategoryKeywords[l].0) <==> exists i :: OccursIgnoringCase(merchant, CategoryKeywords[l].0, i)
    {
      LowerContainsIff(merchant, CategoryKeywords[l].0);
    }
  }

  /** A keyword that does not occur hands the search on to the next one. */
  lemma KeywordSkipped(lowered: string, k: nat)
    requires k < |CategoryKeywords| && !Contains(lowered, CategoryKeywords[k].0)
    ensures FirstKeyword(CategoryKeywords, lowered, k) == FirstKeyword(CategoryKeywords, lowered, k + 1)
  {
  }

  /** A keyword that occurs ends the search. */
  lemma KeywordFound(lowered: string, k: nat)
    requires k < |CategoryKeywords| && Contains(lowered, CategoryKeywords[k].0)
    ensures FirstKeyword(CategoryKeywords, lowered, k) == Some(k)
  {
  }

  /** In "amazon uber" the search reaches "uber", the third keyword, first. */
  lemma AmazonUberKeyword()
    ensures FirstKeyword(CategoryKeywords, "amazon uber", 0) == Some(2)
  {
    AmazonUberSkips();
    HasUber();
    KeywordFound("amazon uber", 2);
  }

  /** "uber" occurs in "amazon uber", at index 7. */
  lemma HasUber()
    ensures Contains("amazon uber", "uber")
  {
    MatchedHere("amazon uber", "uber", 7);
  }

  /** Neither Food keyword occurs in "amazon uber". */
  lemma AmazonUberSkips()
    ensures FirstKeyword(CategoryKeywords, "amazon uber", 0) == FirstKeyword(CategoryKeywords, "amazon uber", 2)
  {
    var lowered := "amazon uber";
    AbsentChar(lowered, "zomato", 4);
    KeywordSkipped(lowered, 0);
    AbsentChar(lowered, "swiggy", 0);
    KeywordSkipped(lowered, 1);
  }

  /** Keywords are searched in table order, not in text order: 'uber' is tried before 'amazon'. */
  lemma TableOrderWins()
    ensures Categorize("Amazon Uber") == Transport
  {
    assert Lower("Amazon Uber") == "amazon uber";
    AmazonUberKeyword();
  }

  /** In "motorola" the search reaches "ola", the fourth keyword, first. */
  lemma MotorolaKeyword()
    ensures FirstKeyword(CategoryKeywords, "motorola", 0) == Some(3)
  {
    MotorolaSkips();
    HasOla();
    KeywordFound("motorola", 3);
  }

  /** "ola" occurs in "motorola", at index 5. */
  lemma HasOla()
    ensures Contains("motorola", "ola")
  {
    MatchedHere("motorola", "ola", 5);
  }

  /** "motorola" contains none of the first three keywords: it has no 'z', 's' or 'u'. */
  lemma MotorolaSkips()
    ensures FirstKeyword(CategoryKeywords, "motorola", 0) == FirstKeyword(CategoryKeywords, "motorola", 3)
  {
    var lowered := "motorola";
    AbsentChar(lowered, "zomato", 0);
    KeywordSkipped(lowered, 0);
    AbsentChar(lowered, "swiggy", 0);
    KeywordSkipped(lowered, 1);
    AbsentChar(lowered, "uber", 0);
    KeywordSkipped(lowered, 2);
  }

  /** Keywords match inside words: 'ola' classifies "Motorola" as Transport. */
  lemma KeywordInsideWord()
    ensures Categorize("Motorola") == Transport
  {
    assert Lower("Motorola") == "motorola";
    MotorolaKeyword();
  }

  /** In "swiggy" the search stops at the second keyword. */
  lemma SwiggyKeyword()
    ensures FirstKeyword(CategoryKeywords, "swiggy", 0) == Some(1)
  {
    var lowered := "swiggy";
    AbsentChar(lowered, "zomato", 0);
    KeywordSkipped(lowered, 0);
    ContainsItself(lowered);
    KeywordFound(lowered, 1);
  }

  /** Classification ignores the case of the merchant. */
  lemma ClassificationIgnoresCase()
    ensures Categorize("SWIGGY") == Food
  {
    assert Lower("SWIGGY") == "swiggy";
    SwiggyKeyword();
  }

  // ---------------------------------------------------------------------
  // parse_sms_data
  // ---------------------------------------------------------------------

  /** The dictionary `parse_sms_data` returns on success. */
  datatype ParsedSms = ParsedSms(amount: string, category: string, description: string, status: Status)

  const SmsLabel := "GPay: "

  function ParseSmsData(sms: string): (r: Option<ParsedSms>)
    ensures r.Some? ==> r.value.status == Paid
    ensures r.Some? ==> r.value.category in {Food, Transport, Shopping, Health, Other}
  {
    match (FindAmount(sms, 0), FindMerchant(sms, 0))
    case (Some(i), Some((j, e))) =>
      var merchant := Strip(sms[j + 3..e]);
      Some(ParsedSms(AmountText(sms, i), Categorize(merchant), SmsLabel + merchant, Paid))
    case _ => None
  }

  /** `ParseSmsData` finds nothing exactly when one of the two patterns matches nowhere. */
  lemma ParseSmsDataNone(sms: string)
    ensures ParseSmsData(sms).None? <==> (forall i :: !AmountAt(sms, i)) || (forall i :: !MerchantMatch(sms, i))
  {
    MatchIsMerchantAt(sms);
  }

  /** The amount is the token after the leftmost `₹` that starts an amount. */
  lemma ParseSmsDataAmount(sms: string)
    ensures ParseSmsData(sms).Some? ==> exists i ::
              && AmountAt(sms, i)
              && (forall k :: 0 <= k < i ==> !AmountAt(sms, k))
              && ParseSmsData(sms).value.amount == AmountText(sms, i)
  {
    if ParseSmsData(sms).Some? {
      var i := FindAmount(sms, 0).value;
      assert ParseSmsData(sms).value.amount == AmountText(sms, i);
    }
  }

  /**
    The leftmost match of the merchant pattern is at `i`, and its capture
    ends at `e`, the first " via" after the "to ".
  */
  ghost predicate LeftmostCapture(sms: string, i: int, e: int) {
    && MerchantMatch(sms, i)
    && (forall k :: 0 <= k < i ==> !MerchantMatch(sms, k))
    && i + 3 <= e && ViaAt(sms, e) && NoBreak(sms, i + 3, e)
    && (forall k :: i + 3 <= k < e ==> !ViaAt(sms, k))
  }

  /** The leftmost merchant match found by the scan is the leftmost match of the pattern. */
  lemma MerchantFound(sms: string, j: nat, e: nat)
    requires FindMerchant(sms, 0) == Some((j, e))
    ensures LeftmostCapture(sms, j, e)
  {
    MerchantAtIff(sms, j);
    forall k | 0 <= k < j
      ensures !MerchantMatch(sms, k)
    {
      MerchantAtIff(sms, k);
    }
  }

  /**
   * The merchant is the stripped text between the leftmost "to " that has a " via" later on
   * its line and the first such " via"; the description and the category are made from it.
   */
  lemma ParseSmsDataMerchant(sms: string)
    ensures ParseSmsData(sms).Some? ==> exists i, e ::
              && LeftmostCapture(sms, i, e)
              && 0 <= i && e <= |sms|
              && ParseSmsData(sms).value.description == SmsLabel + Strip(sms[i + 3..e])
              && ParseSmsData(sms).value.category == Categorize(Strip(sms[i + 3..e]))
  {
    if ParseSmsData(sms).Some? {
      var (j, e) := FindMerchant(sms, 0).value;
      MerchantFound(sms, j, e);
      var r := ParseSmsData(sms).value;
      var merchant := Strip(sms[j + 3..e]);
      assert r.description == SmsLabel + merchant && r.category == Categorize(merchant);
      assert LeftmostCapture(sms, j, e) && 0 <= j && e <= |sms|;
    }
  }

  /** The amount of a text that starts `pre ₹amount ` is found at the `₹` and captured whole. */
  lemma {:induction false} AlertAmount(s: string, pre: string, amount: string)
    requires Rupee !in pre && IsAmountToken(amount)
    requires var head := pre + [Rupee] + amount + " ";
             |head| <= |s| && s[..|head|] == head
    ensures FindAmount(s, 0) == Some(|pre|) && AmountText(s, |pre|) == amount
  {
    var head := pre + [Rupee] + amount + " ";
    var a := |pre|;
    assert s[a] == head[a] == Rupee;
    assert head[a + 1..a + 1 + |amount|] == amount;
    SliceWithin(s, 0, head, a + 1, a + 1 + |amount|);
    assert s[a + 1 + |amount|] == head[a + 1 + |amount|] == ' ';
    assert forall k :: 0 <= k < a ==> s[k] == head[k] == pre[k];
    assert AmountAt(s, a);
    AmountTextUnique(s, a, amount);
  }

  /** No "to " starts inside `pre ₹amount ` followed by "to ". */
  lemma {:induction false} HeadHasNoTo(pre: string, amount: string)
    requires Rupee !in pre && !Contains(pre, "to ") && IsAmountToken(amount)
    ensures var head := pre + [Rupee] + amount + " ";
            forall k :: 0 <= k < |head| ==> !OccursAt(head + "to ", "to ", k)
  {
    var head := pre + [Rupee] + amount + " ";
    var s := head + "to ";
    var a := |pre|;
    ContainsIff(pre, "to ");
    assert s[a] == Rupee;
    forall k | 0 <= k < |head|
      ensures !OccursAt(s, "to ", k)
    {
      if k + 3 <= a {
        assert s[k..k + 3] == pre[k..k + 3];
        assert !OccursAt(pre, "to ", k);
      } else if k <= a {
        Mismatch(s, "to ", k, a - k);
      } else {
        if k < a + 1 + |amount| {
          assert s[k] == amount[k - a - 1];
        } else {
          assert s[k] == ' ';
        }
        Mismatch(s, "to ", k, 0);
      }
    }
  }

  /** The first "to " of `s` is at `t`. */
  predicate FirstToAt(s: string, t: nat) {
    ToAt(s, t) && forall k :: 0 <= k < t ==> !ToAt(s, k)
  }

  /** The first " via" at or after `m` is at `e`, with no line break in between. */
  predicate FirstViaAt(s: string, m: nat, e: nat) {
    && m <= e <= |s| && ViaAt(s, e) && NoBreak(s, m, e)
    && forall k :: m <= k < e ==> !ViaAt(s, k)
  }

  /** The leftmost merchant match, and the first " via" after it, are what `FindMerchant` reports. */
  lemma MerchantLocated(s: string, t: nat, e: nat)
    requires FirstToAt(s, t) && FirstViaAt(s, t + 3, e)
    ensures FindMerchant(s, 0) == Some((t, e))
  {
    assert MerchantAt(s, t);
    assert ViaFrom(s, t + 3) == Some(e);
  }

  /** A text that starts `head to `, where `head` holds no "to ", first matches "to " right after `head`. */
  lemma FirstTo(s: string, head: string)
    requires |head| + 3 <= |s| && s[..|head| + 3] == head + "to "
    requires forall k :: 0 <= k < |head| ==> !OccursAt(head + "to ", "to ", k)
    ensures FirstToAt(s, |head|)
  {
    var front := head + "to ";
    assert s[0..|front|] == front;
    OccursWithin(s, 0, front, "to ", |head|);
    assert front[|head|..] == "to ";
    forall k | 0 <= k < |head|
      ensures !ToAt(s, k)
    {
      OccursWithin(s, 0, front, "to ", k);
    }
  }

  /** A stretch `merchant via` of `s` at `m`, where `merchant` holds no " via" and no line break, ends at its own " via". */
  lemma FirstVia(s: string, m: nat, merchant: string)
    requires m + |merchant| + 4 <= |s| && s[m..m + |merchant| + 4] == merchant + " via"
    requires '\n' !in merchant
    requires forall k :: 0 <= k < |merchant| ==> !OccursAt(merchant + " via", " via", k)
    ensures FirstViaAt(s, m, m + |merchant|)
    ensures s[m..m + |merchant|] == merchant
  {
    var tail := merchant + " via";
    OccursWithin(s, m, tail, " via", |merchant|);
    forall k | m <= k < m + |merchant|
      ensures !ViaAt(s, k)
    {
      OccursWithin(s, m, tail, " via", k - m);
    }
    SliceWithin(s, m, tail, 0, |merchant|);
    assert tail[..|merchant|] == merchant;
  }

  /** In a text that reads `head to merchant via` from its start, the markers are the first ones. */
  lemma MerchantMarkers(s: string, head: string, merchant: string)
    requires |head| + 3 + |merchant| + 4 <= |s|
    requires s[..|head| + 3] == head + "to "
    requires s[|head| + 3..|head| + 3 + |merchant| + 4] == merchant + " via"
    requires forall k :: 0 <= k < |head| ==> !OccursAt(head + "to ", "to ", k)
    requires '\n' !in merchant
    requires forall k :: 0 <= k < |merchant| ==> !OccursAt(merchant + " via", " via", k)
    ensures FirstToAt(s, |head|)
    ensures FirstViaAt(s, |head| + 3, |head| + 3 + |merchant|)
    ensures s[|head| + 3..|head| + 3 + |merchant|] == merchant
  {
    FirstTo(s, head);
    FirstVia(s, |head| + 3, merchant);
  }

  /** Both patterns of `s` are found, at `i` and at `j` with the capture ending at `e`, and capture `amount` and `merchant`. */
  predicate Located(s: string, i: nat, j: nat, e: nat, amount: string, merchant: string) {
    && FindAmount(s, 0) == Some(i) && FindMerchant(s, 0) == Some((j, e))
    && AmountText(s, i) == amount && s[j + 3..e] == merchant
  }

  lemma ParseLocated(s: string, i: nat, j: nat, e: nat, amount: string, merchant: string)
    requires Located(s, i, j, e, amount, merchant)
    ensures ParseSmsData(s) == Some(ParsedSms(amount, Categorize(Strip(merchant)), SmsLabel + Strip(merchant), Paid))
  {
    assert s[j + 3..e] == merchant;
    var stripped := Strip(merchant);
    match (FindAmount(s, 0), FindMerchant(s, 0))
    case (Some(i'), Some((j', e'))) =>
      assert i' == i && j' == j && e' == e;
      assert ParseSmsData(s) == Some(ParsedSms(amount, Categorize(stripped), SmsLabel + stripped, Paid));
    case _ =>
      assert false;
  }

  /** A text whose amount is found at `i` and whose first markers are at `t` and `e` parses to those captures. */
  lemma ParseMarked(s: string, i: nat, t: nat, e: nat, amount: string, merchant: string)
    requires FindAmount(s, 0) == Some(i) && AmountText(s, i) == amount
    requires FirstToAt(s, t) && FirstViaAt(s, t + 3, e) && s[t + 3..e] == merchant
    ensures ParseSmsData(s) == Some(ParsedSms(amount, Categorize(Strip(merchant)), SmsLabel + Strip(merchant), Paid))
  {
    MerchantLocated(s, t, e);
    ParseLocated(s, i, t, e, amount, merchant);
  }

  /**
   * The shape of a payment alert `pre ₹amount to merchant via …`: nothing in `pre` can
   * start either pattern, the amount is a whole token, and the merchant holds no line
   * break and no " via" of its own.
   */
  predicate AlertShape(pre: string, amount: string, merchant: string) {
    && Rupee !in pre && !Contains(pre, "to ")
    && IsAmountToken(amount)
    && '\n' !in merchant
    && forall k :: 0 <= k < |merchant| ==> !OccursAt(merchant + " via", " via", k)
  }

  /** The opening `pre ₹amount to merchant via` of an alert. */
  function AlertOpening(pre: string, amount: string, merchant: string): (r: string)
    ensures |r| == |pre| + |amount| + |merchant| + 9
  {
    pre + [Rupee] + amount + " " + "to " + merchant + " via"
  }

  /** The three stretches of an alert's opening that the two patterns see. */
  lemma OpeningParts(s: string, pre: string, amount: string, merchant: string)
    requires var o := AlertOpening(pre, amount, merchant);
             |o| <= |s| && s[..|o|] == o
    ensures var head := pre + [Rupee] + amount + " ";
            && s[..|head|] == head
            && s[..|head| + 3] == head + "to "
            && s[|head| + 3..|head| + 3 + |merchant| + 4] == merchant + " via"
  {
    var head := pre + [Rupee] + amount + " ";
    var h := |head|;
    var o := AlertOpening(pre, amount, merchant);
    assert o == head + "to " + merchant + " via";
    SliceWithin(s, 0, o, 0, h);
    assert o[0..h] == head;
    SliceWithin(s, 0, o, 0, h + 3);
    assert o[0..h + 3] == head + "to ";
    SliceWithin(s, 0, o, h + 3, h + 3 + |merchant| + 4);
    assert o[h + 3..h + 3 + |merchant| + 4] == merchant + " via";
  }

  /**
   * Any message that opens `pre ₹amount to merchant via` parses to `amount`, the stripped
   * merchant, its category and the "GPay: " description, whatever follows.
   */
  lemma ParseAlert(s: string, pre: string, amount: string, merchant: string)
    requires AlertShape(pre, amount, merchant)
    requires var o := AlertOpening(pre, amount, merchant);
             |o| <= |s| && s[..|o|] == o
    ensures ParseSmsData(s) == Some(ParsedSms(amount, Categorize(Strip(merchant)), SmsLabel + Strip(merchant), Paid))
  {
    var head := pre + [Rupee] + amount + " ";
    OpeningParts(s, pre, amount, merchant);
    AlertAmount(s, pre, amount);
    HeadHasNoTo(pre, amount);
    MerchantMarkers(s, head, merchant);
    ParseMarked(s, |pre|, |head|, |head| + 3 + |merchant|, amount, merchant);
  }
}

=== FILE: views.dfy ===
/**
  The entry points of core/views.py that write transactions, and the
  private-mode switch. Each one is a function from the store and the
  request to the new store and the reply. Authentication is taken as
  done: `user` is the requesting user. `now` is the instant of the
  request in seconds, `today` its UTC day number.
*/
module Views {
  import opened Wrappers
  import opened Text
  import opened Models
  import opened Decimal
  import opened Utils
  import opened Recurring

  /** A value of the request body: absent, or a string. */
  type Field = Option<string>

  /** Python truthiness of a request value: present and not empty. */
  predicate Given(v: Field) {
    v.Some? && v.value != ""
  }

  datatype Method = Get | Post

  datatype Reply =
    | Created(tx: Transaction)                          // the serialized transaction
    | Logged(message: string, echo: string)             // {"message": …, <field>: …}
    | BadRequest(error: string)                         // status 400
    | Page(link: Option<string>, problem: Option<string>) // generate_upi.html and its context
    | PrivateMode(on: bool)
    | ServerError                                       // an exception escapes the view: status 500

  /** `after` is `before` with exactly the transaction `tx` appended and nothing else changed. */
  predicate AddsOne(before: Store, after: Store, tx: Transaction) {
    after.txs == before.txs + [tx] && after.recurring == before.recurring
  }

  // ---------------------------------------------------------------------
  // TransactionViewSet.perform_create
  // ---------------------------------------------------------------------

  /** The fields the serializer has validated; the user and the timestamp are set on save. */
  datatype Draft = Draft(txType: TxType, amount: int, category: string, description: string,
                         paymentMethod: string, isAutoLogged: bool, status: Status)

  function Stamp(d: Draft, user: User, now: int): Transaction {
    Transaction(user, d.txType, d.amount, d.category, d.description, d.paymentMethod, now, d.isAutoLogged, d.status)
  }

  /**
    Saves the draft under the requesting user (core/views.py:31-33), then
    runs the recurring-expense detection with the saved description.
  */
  function PerformCreate(store: Store, user: User, d: Draft, now: int, today: int): (s: Store)
    ensures s.txs == store.txs + [Stamp(d, user, now)]
    ensures s.txs[|store.txs|].user == user && s.txs[|store.txs|].description == d.description
    ensures s.recurring == DetectRecurring(s.txs, store.recurring, user, d.description, d.amount, today)
  {
    var txs := store.txs + [Stamp(d, user, now)];
    Store(txs, DetectRecurring(txs, store.recurring, user, d.description, d.amount, today))
  }

  /**
    The saved transaction is among the similar ones for its own
    description, so a record is found or made under the key of
    (user, description) exactly when the user already had two similar
    transactions.
  */
  lemma PerformCreateDetects(store: Store, user: User, d: Draft, now: int, today: int)
    ensures var s := PerformCreate(store, user, d, now, today);
            var before := SimilarCount(store.txs, user, d.description, |store.txs|);
            && SimilarCount(s.txs, user, d.description, |s.txs|) == before + 1
            && (before < 2 ==> s.recurring == store.recurring)
            && (before >= 2 ==> RowKey(user, d.description) in s.recurring)
  {
    var txs := store.txs + [Stamp(d, user, now)];
    ContainsItself(Lower(d.description));
    assert Similar(txs[|store.txs|], user, d.description);
    SimilarCountPrefix(store.txs, txs, user, d.description, |store.txs|);
  }

  /** Counting over a prefix only looks at the prefix. */
  lemma {:induction false} SimilarCountPrefix(txs: seq<Transaction>, longer: seq<Transaction>, user: User, merchant: string, n: nat)
    requires n <= |txs| <= |longer| && txs == longer[..|txs|]
    ensures SimilarCount(txs, user, merchant, n) == SimilarCount(longer, user, merchant, n)
  {
    if n > 0 {
      assert txs[n - 1] == longer[n - 1];
      SimilarCountPrefix(txs, longer, user, merchant, n - 1);
    }
  }

  // ---------------------------------------------------------------------
  // sms_parser
  // ---------------------------------------------------------------------

  /** The transaction `sms_parser` creates from a parsed alert whose amount is `paise`. */
  function SmsTransaction(user: User, p: ParsedSms, paise: int, now: int): Transaction {
    Transaction(user, Expense, paise, p.category, p.description, "UPI", now, true, p.status)
  }

  /**
    core/views.py:240-260. A missing `sms` makes the search fail (500);
    an alert that does not parse is answered 400; otherwise one
    auto-logged UPI expense is created with the parsed fields.
  */
  function SmsParser(store: Store, user: User, sms: Field, now: int): (res: (Store, Reply))
    ensures res.0.recurring == store.recurring
    ensures res.1.Created? <==> res.0 != store
    ensures sms.None? ==> res == (store, ServerError)
    ensures sms.Some? && ParseSmsData(sms.value).None? ==> res == (store, BadRequest("Could not parse SMS"))
    ensures res.1.Created? ==>
              && sms.Some? && ParseSmsData(sms.value).Some?
              && var p := ParseSmsData(sms.value).value;
                 && ToPaise(p.amount) == Stored(res.1.tx.amount)
                 && res.1.tx == SmsTransaction(user, p, res.1.tx.amount, now)
                 && AddsOne(store, res.0, res.1.tx)
    ensures sms.Some? && ParseSmsData(sms.value).Some? ==>
              var p := ParseSmsData(sms.value).value;
              && (ToPaise(p.amount).Stored? ==>
                    var tx := SmsTransaction(user, p, ToPaise(p.amount).paise, now);
                    res == (Store(store.txs + [tx], store.recurring), Created(tx)))
              && (!ToPaise(p.amount).Stored? ==> res == (store, ServerError))
  {
    match sms
    case None => (store, ServerError)
    case Some(text) =>
      match ParseSmsData(text)
      case None => (store, BadRequest("Could not parse SMS"))
      case Some(p) =>
        match ToPaise(p.amount)
        case Stored(paise) =>
          var tx := SmsTransaction(user, p, paise, now);
          assert store.txs + [tx] != store.txs by {
            assert |store.txs + [tx]| != |store.txs|;
          }
          (Store(store.txs + [tx], store.recurring), Created(tx))
        case _ => (store, ServerError)
  }

  /**
    An SMS is turned away with 400 exactly when one of the two patterns
    matches nowhere in it, and it is a server error exactly when it parses
    but its amount does not fit the field; a captured amount is never
    rejected as not a number.
  */
  lemma SmsParserOutcomes(store: Store, user: User, text: string, now: int)
    ensures var reply := SmsParser(store, user, Some(text), now).1;
            && (reply == BadRequest("Could not parse SMS") <==> (forall i :: !AmountAt(text, i)) || (forall i :: !MerchantMatch(text, i)))
            && (reply == ServerError <==> ParseSmsData(text).Some? && ToPaise(ParseSmsData(text).value.amount).TooManyDigits?)
  {
    ParseSmsDataNone(text);
    if ParseSmsData(text).Some? {
      CapturedAmountIsLiteral(text);
    }
  }

  /** The amount of a parsed SMS is a token `\d+\.?\d*`, so it always reads as a decimal. */
  lemma CapturedAmountIsLiteral(text: string)
    requires ParseSmsData(text).Some?
    ensures !ToPaise(ParseSmsData(text).value.amount).NotANumber?
  {
    ParseSmsDataAmount(text);
    var i :| AmountAt(text, i) && ParseSmsData(text).value.amount == AmountText(text, i);
    AmountTokenIsLiteral(AmountText(text, i));
  }

  /**
    A created SMS expense holds, never negative, the value of the amount
    captured after the leftmost `₹` that starts an amount.
  */
  lemma SmsExpenseAmount(store: Store, user: User, text: string, now: int)
    ensures var reply := SmsParser(store, user, Some(text), now).1;
            reply.Created? ==>
              && reply.tx.amount >= 0
              && exists i ::
                   && AmountAt(text, i) && (forall k :: 0 <= k < i ==> !AmountAt(text, k))
                   && ToPaise(AmountText(text, i)) == Stored(reply.tx.amount)
  {
    if SmsParser(store, user, Some(text), now).1.Created? {
      ParseSmsDataAmount(text);
      var i :| AmountAt(text, i) && (forall k :: 0 <= k < i ==> !AmountAt(text, k))
               && ParseSmsData(text).value.amount == AmountText(text, i);
      AmountTokenIsLiteral(AmountText(text, i));
    }
  }

  /** A captured SMS amount is always a decimal literal without a sign, so it is never rejected as not a number. */
  lemma AmountTokenIsLiteral(a: string)
    requires IsAmountToken(a)
    ensures ParseLiteral(a).Some? && ParseLiteral(a).value.sign == ""
    ensures ToPaise(a).Stored? ==> ToPaise(a).paise >= 0
  {
    assert a[0] != '+' && a[0] != '-';
    assert SignPart(a) == "";
    assert a[0..] == a;
    var n := LeadingDigits(a);
    if n < |a| {
      assert a[n] == '.';
      var rest := a[n..];
      forall k | 0 <= k < |rest[1..]|
        ensures IsDigit(rest[1..][k])
      {
        assert rest[1..][k] == a[n + 1 + k];
        assert a[n + 1 + k] != '.';
      }
    }
  }

  /**
    A payment alert `pre ₹amount to merchant via …` whose amount fits the
    field creates one expense of that amount, categorised and described
    from the stripped merchant.
  */
  lemma SmsAlertCreatesExpense(store: Store, user: User, s: string, pre: string, amount: string, merchant: string, now: int)
    requires AlertShape(pre, amount, merchant)
    requires var o := AlertOpening(pre, amount, merchant);
             |o| <= |s| && s[..|o|] == o
    requires ToPaise(amount).Stored?
    ensures var (after, reply) := SmsParser(store, user, Some(s), now);
            && reply.Created?
            && after.txs == store.txs + [reply.tx]
            && reply.tx.amount == ToPaise(amount).paise && reply.tx.amount >= 0
            && reply.tx.category == Categorize(Strip(merchant))
            && reply.tx.description == "GPay: " + Strip(merchant)
            && reply.tx.txType == Expense && reply.tx.status == Paid
  {
    ParseAlert(s, pre, amount, merchant);
    AmountTokenIsLiteral(amount);
  }

  // ---------------------------------------------------------------------
  // generate_upi_page
  // ---------------------------------------------------------------------

  /** The pending payment `generate_upi_page` records for a payee `name`. */
  function PendingTransaction(user: User, name: string, paise: int, now: int): Transaction {
    Transaction(user, Expense, paise, Other, "Pending GPay to " + name, "UPI", now, true, Pending)
  }

  /**
    core/views.py:209-237. GET shows the empty form. POST without a
    UPI id, a name or an amount shows the form with an error; otherwise
    it shows the link and records one pending expense, which fails (500)
    when the amount is not a number or has too many digits.
  */
  function GenerateUpiPage(store: Store, user: User, verb: Method, upiId: Field, name: Field,
                           amount: Field, note: Field, now: int): (res: (Store, Reply))
    ensures res.0.recurring == store.recurring
    ensures res.0 == store || (res.1.Page? && res.1.link.Some?)
    ensures verb.Get? ==> res == (store, Page(None, None))
    ensures verb.Post? && !(Given(upiId) && Given(name) && Given(amount)) ==>
              res == (store, Page(None, Some("Missing required fields")))
    ensures res.1.Page? && res.1.link.Some? ==>
              && verb.Post? && Given(upiId) && Given(name) && Given(amount)
              && ToPaise(amount.value).Stored?
              && res.1.link.value == GenerateUpiLink(upiId.value, name.value, amount.value, note.GetOr(""))
              && AddsOne(store, res.0, PendingTransaction(user, name.value, ToPaise(amount.value).paise, now))
    ensures verb.Post? && Given(upiId) && Given(name) && Given(amount) ==>
              && (ToPaise(amount.value).Stored? ==>
                    var tx := PendingTransaction(user, name.value, ToPaise(amount.value).paise, now);
                    res == (Store(store.txs + [tx], store.recurring),
                            Page(Some(GenerateUpiLink(upiId.value, name.value, amount.value, note.GetOr(""))), None)))
              && (!ToPaise(amount.value).Stored? ==> res == (store, ServerError))
  {
    if verb.Get? then (store, Page(None, None))
    else if !(Given(upiId) && Given(name) && Given(amount)) then
      (store, Page(None, Some("Missing required fields")))
    else
      var link := GenerateUpiLink(upiId.value, name.value, amount.value, note.GetOr(""));
      match ToPaise(amount.value)
      case Stored(paise) =>
        var tx := PendingTransaction(user, name.value, paise, now);
        (Store(store.txs + [tx], store.recurring), Page(Some(link), None))
      case _ => (store, ServerError)
  }

  /**
    The page records a payment exactly when a POST carries all three
    fields and an amount that fits the field, and then, when no field
    holds an `&`, the link asks for the very amount text whose value was
    recorded.
  */
  lemma UpiPageChargesLinkAmount(store: Store, user: User, verb: Method, upiId: Field, name: Field,
                                 amount: Field, note: Field, now: int)
    ensures var (after, reply) := GenerateUpiPage(store, user, verb, upiId, name, amount, note, now);
            && (after != store <==> verb.Post? && Given(upiId) && Given(name) && Given(amount) && ToPaise(amount.value).Stored?)
            && (after != store && '&' !in upiId.value && '&' !in name.value && '&' !in amount.value && '&' !in note.GetOr("") ==>
                  && QueryParams(reply.link.value) == Some([("pa", upiId.value), ("pn", name.value), ("am", amount.value),
                                                           ("tn", note.GetOr("")), ("cu", "INR")])
                  && ToPaise(amount.value) == Stored(after.txs[|store.txs|].amount))
  {
    var (after, reply) := GenerateUpiPage(store, user, verb, upiId, name, amount, note, now);
    if verb.Post? && Given(upiId) && Given(name) && Given(amount) && ToPaise(amount.value).Stored? {
      var tx := PendingTransaction(user, name.value, ToPaise(amount.value).paise, now);
      assert after.txs == store.txs + [tx];
      assert |after.txs| != |store.txs|;
      if '&' !in upiId.value && '&' !in name.value && '&' !in amount.value && '&' !in note.GetOr("") {
        UpiLinkRoundTrip(upiId.value, name.value, amount.value, note.GetOr(""));
      }
    }
  }

  /** A well-formed two-decimal amount always records the pending payment, with its value. */
  lemma UpiPageRecordsAmount(store: Store, user: User, upiId: string, name: string, paise: int, note: Field, now: int)
    requires upiId != "" && name != "" && -(Limit as int) < paise < Limit
    ensures var (after, reply) := GenerateUpiPage(store, user, Post, Some(upiId), Some(name), Some(PaiseText(paise)), note, now);
            && reply.Page? && reply.link.Some?
            && after.txs == store.txs + [PendingTransaction(user, name, paise, now)]
  {
    var amount := PaiseText(paise);
    PaiseTextRoundTrip(paise);
    assert amount != "" by {
      assert ParseLiteral(amount).Some?;
    }
    assert Given(Some(upiId)) && Given(Some(name)) && Given(Some(amount));
    var (after, reply) := GenerateUpiPage(store, user, Post, Some(upiId), Some(name), Some(amount), note, now);
    assert after == Store(store.txs + [PendingTransaction(user, name, paise, now)], store.recurring);
  }

  // ---------------------------------------------------------------------
  // voice_transaction and scan_bill
  // ---------------------------------------------------------------------

  /** The placeholder amounts, in paise: ₹100 for a voice entry, ₹250 for a scanned bill. */
  const VoiceAmount := 10000
  const BillAmount := 25000

  /** core/views.py:305-323: a transcript is logged as a ₹100 cash expense. */
  function VoiceTransaction(store: Store, user: User, transcript: Field, now: int): (res: (Store, Reply))
    ensures res.0.recurring == store.recurring
    ensures !Given(transcript) ==> res == (store, BadRequest("Transcript missing"))
    ensures Given(transcript) ==>
              && res.1 == Logged("Voice transaction logged", transcript.value)
              && AddsOne(store, res.0, Transaction(user, Expense, VoiceAmount, "Voice Entry", "Voice log: " + transcript.value,
                                                   "Cash", now, true, DefaultStatus))
  {
    if !Given(transcript) then (store, BadRequest("Transcript missing"))
    else
      var tx := Transaction(user, Expense, VoiceAmount, "Voice Entry", "Voice log: " + transcript.value, "Cash", now, true, DefaultStatus);
      (Store(store.txs + [tx], store.recurring), Logged("Voice transaction logged", transcript.value))
  }

  /** core/views.py:326-344: a bill text is logged as a ₹250 card expense. */
  function ScanBill(store: Store, user: User, billText: Field, now: int): (res: (Store, Reply))
    ensures res.0.recurring == store.recurring
    ensures !Given(billText) ==> res == (store, BadRequest("Bill text missing"))
    ensures Given(billText) ==>
              && res.1 == Logged("Bill scanned", billText.value)
              && AddsOne(store, res.0, Transaction(user, Expense, BillAmount, "Bills", "Scanned Bill: " + billText.value,
                                                   "Card", now, true, DefaultStatus))
  {
    if !Given(billText) then (store, BadRequest("Bill text missing"))
    else
      var tx := Transaction(user, Expense, BillAmount, "Bills", "Scanned Bill: " + billText.value, "Card", now, true, DefaultStatus);
      (Store(store.txs + [tx], store.recurring), Logged("Bill scanned", billText.value))
  }

  // ---------------------------------------------------------------------
  // private_mode_toggle
  // ---------------------------------------------------------------------

  /** core/views.py:354-361: the session flag, off when unset, is flipped and reported. */
  function PrivateModeToggle(session: Option<bool>): (res: (bool, Reply))
    ensures res.0 == !session.GetOr(false)
    ensures res.1 == PrivateMode(res.0)
  {
    var status := session.GetOr(false);
    (!status, PrivateMode(!status))
  }

  /** Toggling twice restores the flag; from an unset session it ends off. */
  lemma ToggleTwice(session: Option<bool>)
    ensures PrivateModeToggle(Some(PrivateModeToggle(session).0)).0 == session.GetOr(false)
  {
  }
}

=== FILE: wrappers.dfy ===
/** The Some/None datatype the model uses for Python's "value or None". */
module Wrappers {

  datatype Option<+T> = None | Some(value: T) {

    /** Returns the value in Some, or `default` for None (Python's `x or default`). */
    function GetOr(default: T): T {
      match this
      case Some(v) => v
      case None => default
    }
  }
}
